=== FILE: README.md ===
# A verified model of the shop backend's decision and update rules

The backend is a small Express/MongoDB e-commerce service. Its logic lives in
the HTTP handlers. This project restates that logic as immutable Dafny
datatypes and pure functions that return result variants, and proves
properties about them:

- the **cart engine** (`addToCart`, `updateCart`, `getUserCart`): a user's cart
  is a sequence of `(itemId, quantity)` lines;
- **order placement and listing** (`placeOrder`, `userOrders`);
- **catalogue validation** (`addProduct`, `updateProduct`, `singleProduct`,
  `removeProduct`);
- the **account handlers** (`loginUser`, `registerUser`, `adminLogin`,
  `getUserData`, `updateUser`);
- the **user and product schemas**: validators, required fields, bounds and
  the sparse unique indexes;
- the **two token gates** (`authUser` and `adminAuth`).

The foreign libraries are left uninterpreted and passed in as parameters:

- `jsonwebtoken` is a `Jwt` sign/verify pair;
- `bcrypt` is a `Hasher` hash/compare pair;
- `validator.isEmail` is a predicate.

Two assumptions are made about them, each stated as a `requires` of the
lemmas that need it:

- `Jwt.Sound`: `verify(sign(p)) == Ok(p)`, and a signed token is non-empty
  and contains no space;
- `Hasher.Sound`: `compare(p, hash(p, salt))` holds, so a password matches
  its own hash (used by `UserController.RegisterThenLogin`).

Modules, one per source file or shared concern:

| module | file | models |
|---|---|---|
| `Basics` | basics.dfy | `Option`, `Result`, first-match search (`findIndex`, `findOne`) |
| `Text` | text.dfy | `indexOf`; `split(c)` and its inverse `join(c)`; `s.length` in UTF-16 code units |
| `Crypto` | crypto.dfy | token payloads, the JWT and bcrypt interfaces, the admin configuration |
| `Validators` | validators.dfy | the e-mail and phone patterns of the user schema |
| `UserModel` | user_model.dfy | cart-line and user schemas, `save()` validation, unique indexes, lookups |
| `ProductModel` | product_model.dfy | the product schema and `save()` |
| `CartController` | cart_controller.dfy | the cart handlers |
| `OrderController` | order_controller.dfy | `placeOrder`, `userOrders` |
| `ProductController` | product_controller.dfy | the catalogue handlers |
| `UserController` | user_controller.dfy | the account handlers |
| `Auth` | auth.dfy | `authUser`, `adminAuth` |
| `Sessions` | sessions.dfy | how issued tokens fare at the gates |

Behaviour of the code worth knowing:

- `loginUser` answers "User Does Not Exist" and "Invalid Email or Password" as
  two distinct outcomes. It does not give one generic answer.
- Registration and login use an e-mail only. There is no "e-mail or phone"
  classification.
- A duplicate e-mail gets an in-band `success: false` answer, not a separate
  conflict code.
- `userOrders` answers 404 "No orders found" for an empty selection. It does
  not return an empty list.
- The product schema puts no upper bound on the discount. The bound of 100
  comes only from the controllers mapping any out-of-range discount to 0.
- The order-status lifecycle (advance, cancel, admin listing) is absent from
  the code and so from the model.

## Model

| member | source | states |
|---|---|---|
| `Basics.FirstIndex` | controllers/cartController.js:32 | the reported index holds the first match; no match exists exactly when nothing is reported |
| `Text.Split` | middleware/auth.js:5 | `split(c)` gives at least one piece, and no piece contains the separator |
| `Text.JoinSplit` | middleware/auth.js:5 | joining the pieces of `split(c)` with `c` gives back the original header |
| `Text.JsLength` | controllers/userController.js:46 | `s.length` lies between the number of characters and twice that; `JsLengthOfBmp` and `JsLengthAppend` pin it |
| `Text.JsLengthOfBmp` | controllers/userController.js:46 | a string of Basic Multilingual Plane characters has one UTF-16 code unit per character |
| `Text.JsLengthAppend` | controllers/userController.js:143 | appending a character adds one code unit, or two for a character outside the Basic Multilingual Plane |
| `Text.AstralLength` | controllers/productController.js:82 | four emoji are four characters but have JavaScript length 8 |
| `Text.SplitJoin` | middleware/auth.js:5 | splitting a join of space-free pieces recovers exactly those pieces |
| `Validators.DomainParts` | models/userModel.js:27 | a domain the scan accepts decomposes into one or more `label.` groups followed by a 2-4 character tail |
| `Validators.DomainOfParts` | models/userModel.js:27 | every such decomposition is accepted by the domain scan |
| `Validators.EmailMatchesSound` | models/userModel.js:27 | every string the e-mail scan accepts has the pattern's structure (local part, `@`, labels, tail) |
| `Validators.EmailMatchesComplete` | models/userModel.js:27 | every string with the pattern's structure is accepted by the scan |
| `Validators.EmailMatchesIsRegex` | models/userModel.js:27 | the scan and the pattern's structure accept exactly the same strings |
| `Validators.EmailExamples` | models/userModel.js:26-28 | `a@b.co` passes, `a@b.c` and `a@bco` fail, and an absent or empty e-mail passes |
| `Validators.PhoneExamples` | models/userModel.js:37-39 | exactly ten digits pass; nine digits or a letter fail; an absent or empty phone passes |
| `UserModel.FindById` | controllers/cartController.js:21-24 | the reported document has the id; nothing is found for an undefined id or an unused one |
| `UserModel.FindByEmail` | controllers/userController.js:13 | the first document with that e-mail is found; nothing is found exactly when no document has it |
| `UserModel.Insert` | models/userModel.js:18-49 | a new document is refused for a failed validator (name, password, e-mail, phone, cart lines); otherwise it is refused for an id, present e-mail or present phone another document has; otherwise it is appended, and the indexes stay unique |
| `UserModel.Replace` | models/userModel.js:18-49 | saving an existing document runs the same validators and index checks against every other document; on success only that document changes |
| `UserModel.SetCart` | controllers/cartController.js:43 | the cart update changes only the user's `cartData`, leaves every other document alone and keeps the indexes unique |
| `UserModel.SchemaExamples` | models/userModel.js:18-49 | a user with no e-mail, no phone and an empty cart passes the validators; an empty name, a cart line of quantity 0, or an e-mail without a top-level domain fails them |
| `UserModel.FindByIdAfterSetCart` | controllers/cartController.js:43 | writing a cart changes no id, so every `findById` finds the same document afterwards |
| `UserModel.FindByEmailIsTheOnly` | models/userModel.js:21-24 | with the unique e-mail index, `findOne({ email })` returns the one document holding that e-mail |
| `UserModel.AbsentKeysDoNotCollide` | models/userModel.js:22-24 | a user without e-mail and phone conflicts with no other user on them, because the indexes are sparse |
| `ProductModel.CastRating` | models/productModel.js:12 | an unset rating takes the default 0; a `NaN` rating fails the cast |
| `ProductModel.Save` | models/productModel.js:3-13 | a product saves exactly when its rating casts and it meets the schema: required strings non-empty, prices and discount at least 0, rating in [0, 5] |
| `ProductModel.SchemaAllowsLargeDiscount` | models/productModel.js:8 | the schema alone accepts a discount above 100 |
| `CartController.LineIndex` | controllers/cartController.js:32 | the line found is the first one for the item; no line is found exactly when no line has that item |
| `CartController.AddLine` | controllers/cartController.js:34-40 | an existing line's quantity grows by the amount added, with length and all other lines unchanged; otherwise one line is appended after the untouched old lines |
| `CartController.SetLine` | controllers/cartController.js:85-98 | a missing item is `ItemNotFound`; quantity 0 removes exactly that line and keeps the others in order; a positive quantity replaces the line's quantity |
| `CartController.AddToCart` | controllers/cartController.js:4-58 | a missing item id, an undefined quantity or one below 1 gives 400 before the user lookup; an unknown user gives 404; the request succeeds exactly when the item id is present, the quantity is at least 1 and the user exists, and then stores the merged cart; a failure writes nothing |
| `CartController.UpdateCart` | controllers/cartController.js:61-115 | a missing item id or an undefined or negative quantity gives 400; then an unknown user gives 404; then an item not in the cart gives 404; the request succeeds exactly when none of these applies, and then stores the edited cart; a failure writes nothing |
| `CartController.GetUserCart` | controllers/cartController.js:118-143 | the answer is the stored cart of the user, or 404 when the user is unknown |
| `CartController.QuantityOfAppend` | controllers/cartController.js:39 | appending a line adds its quantity to its own item's total only |
| `CartController.QuantityOfReplace` | controllers/cartController.js:36 | replacing a line changes its item's total by the difference and no other total |
| `CartController.QuantityOfRemove` | controllers/cartController.js:88 | removing a line takes away exactly its contribution |
| `CartController.QuantityOfAbsent` | controllers/cartController.js:32 | a cart with no line for an item holds none of it |
| `CartController.QuantityOfWellFormed` | models/userModel.js:4-15 | in a cart with distinct ids, an item's total is its one line's quantity |
| `CartController.AddLineQuantity` | controllers/cartController.js:32-40 | `addToCart` raises the item's total by the quantity given and leaves every other item's total unchanged |
| `CartController.SetLineQuantity` | controllers/cartController.js:83-92 | in a well-formed cart `updateCart` makes the item's total exactly the new quantity (0 when removed) and leaves other items unchanged |
| `CartController.AddTwiceSums` | controllers/cartController.js:32-40 | in every cart, adding the same item twice sums both quantities and the second call adds no line |
| `CartController.AddLinePreservesWellFormed` | controllers/cartController.js:32-40 | `addToCart` keeps item ids distinct and every quantity at least 1 |
| `CartController.SetLinePreservesWellFormed` | controllers/cartController.js:83-92 | `updateCart` keeps item ids distinct and every quantity at least 1 |
| `CartController.HandlersPreserveWellFormed` | controllers/cartController.js:43 | if every stored cart is well formed before either handler runs, every stored cart is well formed after it |
| `CartController.AddThenGet` | controllers/cartController.js:118-143 | after a successful `addToCart`, `getUserCart` returns the cart the handler answered with |
| `CartController.UpdateThenGet` | controllers/cartController.js:118-143 | after a successful `updateCart`, `getUserCart` returns the edited cart |
| `CartController.FailedEditKeepsCarts` | controllers/cartController.js:9-30 | a refused add or update leaves every user's cart as `getUserCart` read it |
| `OrderController.OrEmpty` | controllers/orderController.js:33-39 | `x \|\| ''` keeps a present value and maps an absent one to the empty string |
| `OrderController.PlaceOrder` | controllers/orderController.js:6-60 | 400 "Missing required fields" exactly when `items` is not a non-empty array or `amount`, `address` or `paymentMethod` is falsy; then 400 "Address fields missing" exactly when a required address field is falsy; otherwise the order has the caller's user id, the items and amount unchanged, status "order placed" and the current date |
| `OrderController.AmountCheckIsOnlyNonZero` | controllers/orderController.js:17-19 | only a missing or zero amount is refused; a negative amount passes |
| `OrderController.PaymentFlag` | controllers/orderController.js:42 | `payment` is false exactly when the method is "COD" |
| `OrderController.AddressDefaults` | controllers/orderController.js:33-39 | the five required fields are copied; an absent apartment or locality becomes "" |
| `OrderController.OwnedBy` | controllers/orderController.js:91 | the selection holds exactly the caller's orders, each as often as in the collection |
| `OrderController.InsertByDate` | controllers/orderController.js:91 | inserting into a newest-first sequence keeps it newest first and adds exactly that order |
| `OrderController.SortNewestFirst` | controllers/orderController.js:91 | the result is a rearrangement of the input with dates never increasing |
| `OrderController.UserOrders` | controllers/orderController.js:81-103 | 400 exactly when there is no user id; 404 exactly when the user owns no order; the request succeeds exactly when the user owns some order, and then lists exactly the user's orders, newest first |
| `OrderController.ListedIffOwned` | controllers/orderController.js:91 | an order is listed exactly when it is in the collection and owned by the caller |
| `ProductController.PositiveOrZero` | controllers/productController.js:13-14 | the normalised price is positive exactly when the input is a positive number, and is then that number; anything else is 0 |
| `ProductController.ClampDiscount` | controllers/productController.js:15 | the stored discount lies in [0, 100]: an in-range number is kept, anything else becomes 0 |
| `ProductController.CheckPrices` | controllers/productController.js:17-21 | the prices pass exactly when both are positive and the old price is not below the new; a non-positive price is reported exactly when either is non-positive, and "old below new" exactly when both are positive and old < new |
| `ProductController.AddProduct` | controllers/productController.js:5-47 | a missing name, description or category, or an undefined discount or rating, is refused; then the price rule's error is answered; the product is saved exactly when the fields are present, the prices pass and the rating is a number in [0, 5], and the server error is answered exactly when only the rating fails; a saved product meets the schema, has old price ≥ new price > 0 as given, a clamped discount of at most 100, the given rating, images and date |
| `ProductController.NonPositivePriceRejected` | controllers/productController.js:13-18 | an old price that is not a positive number is refused as non-positive |
| `ProductController.PriceOrdering` | controllers/productController.js:19-21 | an old price below the new is refused; equal prices pass the price rule |
| `ProductController.OutOfRangeDiscountStoredAsZero` | controllers/productController.js:15 | a discount outside [0, 100] is stored as 0, not refused |
| `ProductController.OrString` | controllers/productController.js:127-132 | `a \|\| b` on strings: a non-empty `a` is kept, an empty one gives `b` |
| `ProductController.OrNumber` | controllers/productController.js:129-133 | `a \|\| b` on numbers: a non-zero number is kept, while 0 and `NaN` give `b` |
| `ProductController.Merge` | controllers/productController.js:119-133 | the draft `updateProduct` saves: the date and each falsy field keep the stored value, images change only on upload, the normalised prices are taken when positive, and the rating is always a number |
| `ProductController.UpdateProduct` | controllers/productController.js:100-141 | an unknown id is 404, before any price check; the price rule's error is answered as for adding, so both prices must be supplied every time; once the prices pass, the update succeeds exactly when the merged product saves and is a server error otherwise; each falsy field keeps its stored value; images change only when files were uploaded |
| `ProductController.UpdateOfValidProductSaves` | controllers/productController.js:119-136 | an update of a stored product that meets the schema succeeds whenever the prices pass and the rating given is not a number outside [0, 5] |
| `ProductController.ZeroCannotOverwrite` | controllers/productController.js:131-133 | a discount or rating of 0 leaves the stored discount and rating unchanged |
| `ProductController.EmptyUpdateKeepsProduct` | controllers/productController.js:127-133 | an update that repeats the stored prices and supplies nothing else gives back the stored product |
| `ProductController.UpdateIdempotent` | controllers/productController.js:119-133 | applying the same update twice gives the same product as applying it once |
| `ProductController.SingleProduct` | controllers/productController.js:78-97 | an id whose JavaScript length (UTF-16 code units) is not 24 is refused before the lookup; an unknown id is 404; otherwise the stored product |
| `ProductController.RemoveThenSingle` | controllers/productController.js:61-97 | after a removal, `singleProduct` answers 404 for that id and reads every other id as before |
| `ProductController.UpdateThenSingle` | controllers/productController.js:78-97 | once an updated product is stored, `singleProduct` returns it |
| `ProductController.RemoveProduct` | controllers/productController.js:61-75 | an unknown id is 404; otherwise exactly that product is removed and the others are kept |
| `Auth.BearerToken` | middleware/auth.js:5-7 | a token is found exactly when the header's second space-separated piece exists and is non-empty; it contains no space |
| `Auth.BearerTokenOfWords` | middleware/auth.js:5 | the token is the second word whatever the first word (the scheme is not checked) and whatever follows |
| `Auth.BearerTokenOfHeader` | middleware/auth.js:5 | `"Bearer " + t` yields `t` |
| `Auth.NoSpaceNoToken` | middleware/auth.js:5-9 | a header without a space yields no token |
| `Auth.DoubleSpaceNoToken` | middleware/auth.js:5-9 | a double space leaves an empty second piece, which counts as no token |
| `Auth.AuthUser` | middleware/auth.js:3-23 | no token gives 401; a failed verification gives 401; otherwise the request continues exactly once, with `{ _id: decoded.id }` attached |
| `Auth.AdminAuth` | middleware/adminAuth.js:3-19 | a missing token is refused; a verification error is answered with its message; a token that verifies to any other payload is answered "inavlid data, NOT AUTHORIZED TO LOGIN "; the request continues exactly when the verified payload equals the admin e-mail followed by the admin password |
| `UserController.CreateToken` | controllers/userController.js:6-8 | for a sound signer the token verifies back to `{ id }`, is non-empty and contains no space |
| `UserController.LoginUser` | controllers/userController.js:10-31 | an unknown e-mail gives "User Does Not Exist"; a known e-mail with a non-matching password gives "Invalid Email or Password"; the login succeeds exactly when the e-mail is known and the password matches, with a token for that user |
| `UserController.RegisterUser` | controllers/userController.js:33-70 | an existing e-mail is refused first, then an invalid e-mail, then a password shorter than 8 UTF-16 code units; past those checks the registration succeeds exactly when the save does, and a refused save is answered with its cause; on success the new document holds the name, the e-mail and the hash of the password, and the answer is a token for its id; a failure writes nothing |
| `UserController.AdminLogin` | controllers/userController.js:72-85 | succeeds exactly when both values equal the configured ones; the token is signed over their concatenation |
| `UserController.Authenticate` | controllers/userController.js:90-102 | a missing token is "No token provided", a failed verification is the handler's catch-all answer, a verified token whose id designates no user is "User not found", and a verified token whose id designates a user yields that document |
| `UserController.GetUserData` | controllers/userController.js:87-115 | a failure is exactly the authentication failure: "No token provided", "User not found", or "Error fetching user data" for a token that does not verify; otherwise only the name and e-mail of the token's user are sent |
| `UserController.Updated` | controllers/userController.js:141-163 | the document after an update keeps the phone and cart; the password becomes the hash of the new one exactly when both passwords are given; an empty name or e-mail keeps the stored value, and a provided name or e-mail replaces it |
| `UserController.UpdateUser` | controllers/userController.js:118-179 | an invalid new e-mail is refused before any password handling; when both passwords are given, a new password shorter than 8 UTF-16 code units is refused before the current one is compared, then a wrong current password is refused; once the checks pass, the update succeeds exactly when the save does and is "Error updating user" otherwise; a success stores the updated document and sends only name and e-mail; a failure writes nothing |
| `UserController.PasswordBoundary` | controllers/userController.js:46-51 | a 7-character password is refused as weak, an 8-character one is not |
| `UserController.AstralPasswordIsLongEnough` | controllers/userController.js:46 | a password of four emoji has JavaScript length 8 and is not refused as weak |
| `UserController.RegisterThenLogin` | controllers/userController.js:13-25 | logging in with the e-mail and password just registered yields the new user's token, given that a hash compares equal to its password |
| `UserController.RegisterKeepsKeysUnique` | models/userModel.js:21-35 | registration keeps id, e-mail and phone unique |
| `UserController.UpdateKeepsKeysUnique` | models/userModel.js:21-35 | a profile update keeps id, e-mail and phone unique |
| `UserController.UpdateChangesOnlyNameEmailPassword` | controllers/userController.js:141-163 | an update leaves the id, phone, cart and other users unchanged; the password changes only when both passwords are given; the name and e-mail change only when provided |
| `Sessions.AdminTokenPassesAdminGate` | middleware/adminAuth.js:9-13 | the token `adminLogin` issues passes `adminAuth` |
| `Sessions.AdminGateNeedsAdminCredentials` | controllers/userController.js:75-76 | `adminLogin` issues a token only for the configured credentials, and that token passes the admin gate |
| `Sessions.UserTokenFailsAdminGate` | middleware/adminAuth.js:10 | a user token carries an `{ id }` object, never the admin string, and is refused |
| `Sessions.UserTokenPassesUserGate` | middleware/auth.js:13-18 | `Bearer <user token>` passes `authUser` and attaches that user's id |
| `Sessions.AdminTokenAtUserGate` | controllers/orderController.js:84-88 | the admin token passes `authUser` with no user id attached, so `userOrders` answers "User not authenticated" |
| `Sessions.RegisteredUserSeesProfile` | controllers/userController.js:104-110 | `getUserData` with a freshly issued registration token answers the registered name and e-mail |

## Left out

- The order-status lifecycle is not modelled. `updateStatus` and `allOrders` have empty bodies. `cancelOrder` and `clearCart` are routed but never defined or exported.
- The payment gateways are not modelled: `placeOrderStripe` and `placeOrderRazorpay` have empty bodies.
- Image uploads to the media service are not modelled. The handlers receive the resulting list of URLs as a parameter.
- `listProduct` is not modelled: it returns the whole collection and makes no decision.
- MongoDB is replaced by in-memory data: users are a sequence of documents and products are a map. Timestamps are left out. `Date.now()` is a parameter.
- orderModel.js is not part of this model. Saving an order is not modelled beyond building the record, and any schema checks of its own are not modelled.
- MongoDB's sort order among orders with equal dates is unspecified. `SortNewestFirst` claims only a newest-first rearrangement.
- A malformed ObjectId makes a lookup by id throw a cast error. Only ids that are cast take this path: the user id in the cart handlers and in `getUserData`/`updateUser`, and the product id in `singleProduct`, `updateProduct` and `removeProduct`. The cart and product handlers answer the cast error with status 500. `getUserData` and `updateUser` answer in-band with status 200: "Error fetching user data" or "Error updating user". The model does not model the cast. It answers such an id as unknown, with `UserNotFound` or `NotFound`.
- The cart write casts every line against the cart-item schema, whose `itemId` is an ObjectId. A well-formed id is stored as an ObjectId; an id that is not 24 hexadecimal digits makes the write fail with a cast error, which the cart handlers answer with status 500. The model assumes item ids are well-formed ObjectIds and does not model the failed cast: `CartController.AddToCart` and `CartController.UpdateCart` store any non-empty item id.
- JavaScript coercions are not modelled. `Number()` is the `Num` datatype (`NaN` or an integer). An absent text field is `""` or `None`. Quantities, prices, discounts, ratings and the order `amount` are integers (a fractional amount such as 19.99 is not modelled): there is no floating point, and no `+=` string concatenation of a quantity.
- CartController.WellFormed holds only because quantities are integers. The cart write runs no validators, so in the code `updateCart` with quantity 0.5 stores 0.5, a quantity the cart-item schema would refuse.
- UserController.RegisterUser stores `hash(password, salt)`; that the raw password is never stored cannot be proved of an uninterpreted hash function, so the model does not promise it.
- UserController.RegisterUser: a request without a `password` makes `password.length` throw a TypeError, which the catch block answers in-band (status 200) with the error's message. The model reads the absent password as `""` and answers `WeakPassword`.
- UserController.LoginUser: a request without a `password` makes `bcrypt.compare` reject, and the catch block answers in-band with the error's message. The model passes `""` to the uninterpreted `compare` and answers as it decides.
- An undefined `email` in a `findOne` filter matches any document in MongoDB. The model always receives a string e-mail.
- `bcrypt`, `jsonwebtoken` and `validator.isEmail` are uninterpreted parameters. Token expiry is part of the library's `verify`.
- The contents of an order's items are not modelled: the handler stores them without inspecting them.
- Express routing, HTTP plumbing beyond result variants and logging are not modelled. Neither are the catch-all answers for library faults: status 500 in the cart, order and product handlers, and an in-band `{ success: false, message }` with status 200 in the account handlers and `adminAuth`.
- Concurrent read-modify-write races on a cart are not modelled.

=== FILE: auth.dfy ===
/** The two token gates: `authUser`, which reads a user token from the
    `Authorization` header, and `adminAuth`, which reads the admin token from
    the `token` header and compares its payload with the configured
    credentials. A gate either lets the request through (`next()` is called
    once, with what it attached to the request) or answers it. */
module Auth {
  import opened Basics
  import opened Text
  import opened Crypto

  /** `header.split(' ')[1]` where a missing, undefined or empty segment gives no token. */
  function BearerToken(header: Option<string>): (r: Option<string>)
    ensures r.Some? ==> r.value != "" && ' ' !in r.value
    ensures r.Some? <==> header.Some? && |Split(header.value, ' ')| >= 2 && Split(header.value, ' ')[1] != ""
  {
    match header
    case None => None
    case Some(h) =>
      var parts := Split(h, ' ');
      if |parts| >= 2 && parts[1] != "" then Some(parts[1]) else None
  }

  /** The second space-separated word is the token, whatever the first word is and
      whatever follows it. */
  lemma BearerTokenOfWords(parts: seq<string>)
    requires |parts| >= 2 && parts[1] != ""
    requires forall k :: 0 <= k < |parts| ==> ' ' !in parts[k]
    ensures BearerToken(Some(Join(parts, ' '))) == Some(parts[1])
  {
    SplitJoin(parts, ' ');
  }

  /** `"Bearer " + t` yields `t` for a non-empty `t` without spaces. */
  lemma BearerTokenOfHeader(t: string)
    requires t != "" && ' ' !in t
    ensures BearerToken(Some("Bearer " + t)) == Some(t)
  {
    var parts := ["Bearer", t];
    assert Join(parts, ' ') == "Bearer " + t by {
      assert Join(parts[1..], ' ') == t;
    }
    BearerTokenOfWords(parts);
  }

  /** A header without a space has no second segment. */
  lemma NoSpaceNoToken(h: string)
    requires ' ' !in h
    ensures BearerToken(Some(h)) == None
  {
    assert IndexOf(h, ' ').None?;
  }

  /** A double space leaves an empty second segment, which counts as no token. */
  lemma DoubleSpaceNoToken(scheme: string, t: string)
    requires ' ' !in scheme
    ensures BearerToken(Some(scheme + "  " + t)) == None
  {
    var h := scheme + "  " + t;
    var rest := " " + t;
    assert h == scheme + [' '] + rest;
    IndexOfAfterPrefix(scheme, ' ', rest);
    assert h[|scheme| + 1..] == rest;
    assert rest == [] + [' '] + t;
    IndexOfAfterPrefix([], ' ', t);
    assert Split(rest, ' ')[0] == "";
    assert Split(h, ' ') == [h[..|scheme|]] + Split(rest, ' ');
  }

  /** What `authUser` attaches to the request: `{ _id: decoded.id }`. */
  datatype ReqUser = ReqUser(id: Option<string>)

  datatype AuthFailure = NoToken | BadToken {
    function Status(): int { 401 }

    function Message(): string {
      match this
      case NoToken => "NOT AUTHORIZED. LOGIN AGAIN"
      case BadToken => "Invalid or expired token"
    }
  }

  datatype UserGate = UserNext(user: ReqUser) | UserReject(failure: AuthFailure)

  /** `authUser`. */
  function AuthUser(jwt: Jwt, authorization: Option<string>): (r: UserGate)
    ensures BearerToken(authorization).None? ==> r == UserReject(NoToken)
    ensures BearerToken(authorization).Some? && jwt.verify(BearerToken(authorization).value).Err? ==>
      r == UserReject(BadToken)
    ensures r.UserNext? <==>
      BearerToken(authorization).Some? && jwt.verify(BearerToken(authorization).value).Ok?
    ensures r.UserNext? ==> r.user == ReqUser(IdOf(jwt.verify(BearerToken(authorization).value).value))
  {
    match BearerToken(authorization)
    case None => UserReject(NoToken)
    case Some(token) =>
      match jwt.verify(token)
      case Err(_) => UserReject(BadToken)
      case Ok(decoded) => UserNext(ReqUser(IdOf(decoded)))
  }

  /** The answer `adminAuth` gives when the token is missing or is not the admin's. */
  const NotAuthorized := "inavlid data, NOT AUTHORIZED TO LOGIN "

  datatype AdminGate = AdminNext | AdminReject(message: string)

  /** The payload the admin token must carry: the two configured values concatenated. */
  function AdminPayload(env: Env): Payload {
    StringPayload(env.adminEmail + env.adminPassword)
  }

  /** `adminAuth`: a missing token, a verification error (answered with the library's
      message) and a payload other than the admin's all stop the request. */
  function AdminAuth(env: Env, jwt: Jwt, token: Option<string>): (r: AdminGate)
    ensures token.None? || token == Some("") ==> r == AdminReject(NotAuthorized)
    ensures r.AdminNext? <==> token.Some? && token.value != "" && jwt.verify(token.value) == Ok(AdminPayload(env))
    ensures token.Some? && token.value != "" && jwt.verify(token.value).Err? ==>
      r == AdminReject(jwt.verify(token.value).error)
    ensures token.Some? && token.value != "" && jwt.verify(token.value).Ok? ==>
      jwt.verify(token.value).value != AdminPayload(env) ==> r == AdminReject(NotAuthorized)
  {
    match token
    case None => AdminReject(NotAuthorized)
    case Some(t) =>
      if t == "" then AdminReject(NotAuthorized)
      else match jwt.verify(t)
        case Err(message) => AdminReject(message)
        case Ok(decoded) => if decoded != AdminPayload(env) then AdminReject(NotAuthorized) else AdminNext
  }
}

=== FILE: basics.dfy ===
/** Small building blocks shared by every part of the model: optional values,
    results with an error variant, and first-match search over a sequence
    (the shape of `Array.prototype.findIndex` and of a `findOne` query). */
module Basics {

  /** A value that may be absent (`undefined`/`null` in the JavaScript code). */
  datatype Option<T> = None | Some(value: T)

  /** The outcome of an operation that may fail with an error of type `E`. */
  datatype Result<T, E> = Ok(value: T) | Err(error: E)

  /** The index of the first element of `s` satisfying `p`, or `None`. */
  function FirstIndex<T>(s: seq<T>, p: T -> bool): (r: Option<nat>)
    ensures r.Some? ==> r.value < |s| && p(s[r.value])
    ensures r.Some? ==> forall j :: 0 <= j < r.value ==> !p(s[j])
    ensures r.None? ==> forall j :: 0 <= j < |s| ==> !p(s[j])
  {
    if |s| == 0 then None
    else if p(s[0]) then Some(0)
    else match FirstIndex(s[1..], p)
      case None => None
      case Some(k) => Some(k + 1)
  }

  /** Every element satisfying `p` sits at the index `FirstIndex` reports or later. */
  lemma FirstIndexIsUnique<T>(s: seq<T>, p: T -> bool, i: nat)
    requires i < |s| && p(s[i])
    requires forall j :: 0 <= j < i ==> !p(s[j])
    ensures FirstIndex(s, p) == Some(i)
  {
  }
}

=== FILE: cart_controller.dfy ===
/** The cart engine: `addToCart`, `updateCart` and `getUserCart`. Each
    handler validates the request body, looks the authenticated user up by
    id, edits the cart as a sequence of lines and writes it back with an
    update that runs no validators. The pure line edits are `AddLine` and
    `SetLine`; `QuantityOf` is the cart read as a bag of quantities, the
    reference the edits are proved against. */
module CartController {
  import opened Basics
  import opened UserModel

  /** The failures the handlers report, with their HTTP status. */
  datatype CartError = InvalidInput | UserNotFound | ItemNotFound {
    function Status(): int {
      match this
      case InvalidInput => 400
      case UserNotFound => 404
      case ItemNotFound => 404
    }
  }

  /** What a handler answers, and the collection afterwards. */
  datatype CartStep = CartStep(result: Result<Cart, CartError>, db: Db)

  /** `cartData.findIndex(item => item.itemId === itemId)`. */
  function LineIndex(cart: Cart, itemId: string): (r: Option<nat>)
    ensures r.Some? ==> r.value < |cart| && cart[r.value].itemId == itemId
    ensures r.Some? ==> forall k :: 0 <= k < r.value ==> cart[k].itemId != itemId
    ensures r.None? <==> forall k :: 0 <= k < |cart| ==> cart[k].itemId != itemId
  {
    FirstIndex(cart, (l: CartLine) => l.itemId == itemId)
  }

  /** The cart invariant: item ids are distinct and every line satisfies the cart-item schema. */
  predicate WellFormed(cart: Cart) {
    && (forall k :: 0 <= k < |cart| ==> CartLineValid(cart[k]))
    && (forall i, j :: 0 <= i < j < |cart| ==> cart[i].itemId != cart[j].itemId)
  }

  /** The total quantity the cart holds of `itemId`, over all its lines. */
  function QuantityOf(cart: Cart, itemId: string): int {
    if |cart| == 0 then 0
    else
      var last := cart[|cart| - 1];
      QuantityOf(cart[..|cart| - 1], itemId) + (if last.itemId == itemId then last.quantity else 0)
  }

  /** The merge of `addToCart`: increment the first line for `itemId`, or append a new line. */
  function AddLine(cart: Cart, itemId: string, quantity: int): (r: Cart)
    ensures LineIndex(cart, itemId).Some? ==>
      var i := LineIndex(cart, itemId).value;
      |r| == |cart| && r[i] == CartLine(itemId, cart[i].quantity + quantity)
      && forall k :: 0 <= k < |cart| && k != i ==> r[k] == cart[k]
    ensures LineIndex(cart, itemId).None? ==>
      |r| == |cart| + 1 && r[..|cart|] == cart && r[|cart|] == CartLine(itemId, quantity)
  {
    match LineIndex(cart, itemId)
    case Some(i) => cart[i := cart[i].(quantity := cart[i].quantity + quantity)]
    case None => cart + [CartLine(itemId, quantity)]
  }

  /** The edit of `updateCart`: quantity 0 removes the line, a positive quantity replaces
      the line's quantity, and an item not in the cart is reported. */
  function SetLine(cart: Cart, itemId: string, quantity: nat): (r: Result<Cart, CartError>)
    ensures r.Err? <==> LineIndex(cart, itemId).None?
    ensures r.Err? ==> r.error == ItemNotFound
    ensures r.Ok? && quantity == 0 ==>
      var i := LineIndex(cart, itemId).value;
      r.value == cart[..i] + cart[i + 1..]
    ensures r.Ok? && quantity > 0 ==>
      var i := LineIndex(cart, itemId).value;
      |r.value| == |cart| && r.value[i] == CartLine(itemId, quantity)
      && forall k :: 0 <= k < |cart| && k != i ==> r.value[k] == cart[k]
  {
    match LineIndex(cart, itemId)
    case None => Err(ItemNotFound)
    case Some(i) =>
      if quantity == 0 then Ok(cart[..i] + cart[i + 1..])
      else Ok(cart[i := cart[i].(quantity := quantity)])
  }

  /** `addToCart`: reject a missing item id, an undefined quantity or one below 1; then a
      missing user; otherwise merge the line and write the cart back. */
  function AddToCart(db: Db, userId: Option<string>, itemId: string, quantity: Option<int>): (r: CartStep)
    ensures r.result.Err? ==> r.db == db
    ensures itemId == "" || quantity.None? || quantity.value < 1 ==> r.result == Err(InvalidInput)
    ensures r.result == Err(UserNotFound) <==>
      itemId != "" && quantity.Some? && quantity.value >= 1 && FindById(db, userId).None?
    ensures r.result.Ok? <==>
      itemId != "" && quantity.Some? && quantity.value >= 1 && FindById(db, userId).Some?
    ensures r.result.Ok? ==>
      var i := FindById(db, userId).value;
      && r.result.value == AddLine(db[i].user.cartData, itemId, quantity.value)
      && r.db == SetCart(db, i, r.result.value)
  {
    if itemId == "" || quantity.None? || quantity.value < 1 then CartStep(Err(InvalidInput), db)
    else match FindById(db, userId)
      case None => CartStep(Err(UserNotFound), db)
      case Some(i) =>
        var cart := AddLine(db[i].user.cartData, itemId, quantity.value);
        CartStep(Ok(cart), SetCart(db, i, cart))
  }

  /** `updateCart`: reject a missing item id, an undefined or negative quantity; then a
      missing user; then an item not in the cart; otherwise write the edited cart back. */
  function UpdateCart(db: Db, userId: Option<string>, itemId: string, quantity: Option<int>): (r: CartStep)
    ensures r.result.Err? ==> r.db == db
    ensures itemId == "" || quantity.None? || quantity.value < 0 ==> r.result == Err(InvalidInput)
    ensures r.result == Err(UserNotFound) <==>
      itemId != "" && quantity.Some? && quantity.value >= 0 && FindById(db, userId).None?
    ensures r.result == Err(ItemNotFound) <==>
      && itemId != "" && quantity.Some? && quantity.value >= 0 && FindById(db, userId).Some?
      && LineIndex(db[FindById(db, userId).value].user.cartData, itemId).None?
    ensures r.result.Ok? <==>
      && itemId != "" && quantity.Some? && quantity.value >= 0 && FindById(db, userId).Some?
      && LineIndex(db[FindById(db, userId).value].user.cartData, itemId).Some?
    ensures r.result.Ok? ==>
      var i := FindById(db, userId).value;
      && SetLine(db[i].user.cartData, itemId, quantity.value) == Ok(r.result.value)
      && r.db == SetCart(db, i, r.result.value)
  {
    if itemId == "" || quantity.None? || quantity.value < 0 then CartStep(Err(InvalidInput), db)
    else match FindById(db, userId)
      case None => CartStep(Err(UserNotFound), db)
      case Some(i) =>
        match SetLine(db[i].user.cartData, itemId, quantity.value)
        case Err(e) => CartStep(Err(e), db)
        case Ok(cart) => CartStep(Ok(cart), SetCart(db, i, cart))
  }

  /** `getUserCart`: the stored cart of the authenticated user. */
  function GetUserCart(db: Db, userId: Option<string>): (r: Result<Cart, CartError>)
    ensures r.Err? <==> FindById(db, userId).None?
    ensures r.Err? ==> r.error == UserNotFound
    ensures r.Ok? ==> r.value == db[FindById(db, userId).value].user.cartData
  {
    match FindById(db, userId)
    case None => Err(UserNotFound)
    case Some(i) => Ok(db[i].user.cartData)
  }

  // ---- the cart as a bag of quantities ----

  /** Appending a line adds its quantity to its own item and nothing to the others. */
  lemma {:induction false} QuantityOfAppend(cart: Cart, l: CartLine, itemId: string)
    ensures QuantityOf(cart + [l], itemId) == QuantityOf(cart, itemId) + (if l.itemId == itemId then l.quantity else 0)
  {
    assert (cart + [l])[..|cart|] == cart;
  }

  /** Replacing one line by a line for the same item changes that item's total by the difference. */
  lemma {:induction false} QuantityOfReplace(cart: Cart, i: nat, l: CartLine, itemId: string)
    requires i < |cart| && l.itemId == cart[i].itemId
    ensures QuantityOf(cart[i := l], itemId) ==
      QuantityOf(cart, itemId) + (if l.itemId == itemId then l.quantity - cart[i].quantity else 0)
    decreases |cart|
  {
    var n := |cart| - 1;
    var c' := cart[i := l];
    if i == n {
      assert c'[..n] == cart[..n];
    } else {
      QuantityOfReplace(cart[..n], i, l, itemId);
      assert c'[..n] == cart[..n][i := l];
    }
  }

  /** Removing the line at `i` takes away exactly its contribution. */
  lemma {:induction false} QuantityOfRemove(cart: Cart, i: nat, itemId: string)
    requires i < |cart|
    ensures QuantityOf(cart[..i] + cart[i + 1..], itemId) ==
      QuantityOf(cart, itemId) - (if cart[i].itemId == itemId then cart[i].quantity else 0)
    decreases |cart|
  {
    var n := |cart| - 1;
    if i == n {
      assert cart[..i] + cart[i + 1..] == cart[..n];
    } else {
      QuantityOfRemove(cart[..n], i, itemId);
      assert cart[..i] + cart[i + 1..] == (cart[..n][..i] + cart[..n][i + 1..]) + [cart[n]];
      QuantityOfAppend(cart[..n][..i] + cart[..n][i + 1..], cart[n], itemId);
    }
  }

  /** A cart with no line for `itemId` holds none of it. */
  lemma {:induction false} QuantityOfAbsent(cart: Cart, itemId: string)
    requires forall k :: 0 <= k < |cart| ==> cart[k].itemId != itemId
    ensures QuantityOf(cart, itemId) == 0
    decreases |cart|
  {
    if |cart| > 0 {
      QuantityOfAbsent(cart[..|cart| - 1], itemId);
    }
  }

  /** In a well-formed cart the total for an item present at `i` is that line's quantity. */
  lemma {:induction false} QuantityOfWellFormed(cart: Cart, i: nat)
    requires WellFormed(cart) && i < |cart|
    ensures QuantityOf(cart, cart[i].itemId) == cart[i].quantity
  {
    var id := cart[i].itemId;
    QuantityOfRemove(cart, i, id);
    var rest := cart[..i] + cart[i + 1..];
    assert forall k :: 0 <= k < |rest| ==> rest[k].itemId != id by {
      forall k | 0 <= k < |rest|
        ensures rest[k].itemId != id
      {
        if k < i { assert rest[k] == cart[k]; } else { assert rest[k] == cart[k + 1]; }
      }
    }
    QuantityOfAbsent(rest, id);
  }

  /** Adding `quantity` of an item raises its total by `quantity` and leaves every other item's total
      alone, whether or not the item was already in the cart. */
  lemma AddLineQuantity(cart: Cart, itemId: string, quantity: int, other: string)
    ensures QuantityOf(AddLine(cart, itemId, quantity), other) ==
      QuantityOf(cart, other) + (if other == itemId then quantity else 0)
  {
    match LineIndex(cart, itemId)
    case Some(i) =>
      QuantityOfReplace(cart, i, CartLine(itemId, cart[i].quantity + quantity), other);
    case None =>
      QuantityOfAppend(cart, CartLine(itemId, quantity), other);
  }

  /** In a well-formed cart, setting an item present in the cart makes its total exactly `quantity`
      (0 when removed) and leaves every other item's total alone. */
  lemma SetLineQuantity(cart: Cart, itemId: string, quantity: nat, other: string)
    requires WellFormed(cart)
    requires SetLine(cart, itemId, quantity).Ok?
    ensures QuantityOf(SetLine(cart, itemId, quantity).value, other) ==
      if other == itemId then quantity else QuantityOf(cart, other)
  {
    var i := LineIndex(cart, itemId).value;
    QuantityOfWellFormed(cart, i);
    if quantity == 0 {
      QuantityOfRemove(cart, i, other);
    } else {
      QuantityOfReplace(cart, i, CartLine(itemId, quantity), other);
    }
  }

  /** Adding the same item twice sums the two quantities on one line and adds no second line. */
  lemma AddTwiceSums(cart: Cart, itemId: string, q1: int, q2: int)
    ensures var once := AddLine(cart, itemId, q1);
      var twice := AddLine(once, itemId, q2);
      |twice| == |once| && QuantityOf(twice, itemId) == QuantityOf(cart, itemId) + q1 + q2
  {
    var once := AddLine(cart, itemId, q1);
    AddLineQuantity(cart, itemId, q1, itemId);
    AddLineQuantity(once, itemId, q2, itemId);
    assert LineIndex(once, itemId).Some? by {
      if LineIndex(cart, itemId).None? {
        assert once[|cart|].itemId == itemId;
      }
    }
  }

  // ---- the cart invariant ----

  /** `addToCart`'s merge keeps ids distinct and quantities at least 1. */
  lemma AddLinePreservesWellFormed(cart: Cart, itemId: string, quantity: int)
    requires WellFormed(cart) && itemId != "" && quantity >= 1
    ensures WellFormed(AddLine(cart, itemId, quantity))
  {
    var r := AddLine(cart, itemId, quantity);
    if LineIndex(cart, itemId).None? {
      assert forall k :: 0 <= k < |cart| ==> r[k] == cart[k];
    }
  }

  /** `updateCart`'s edit keeps ids distinct and quantities at least 1. */
  lemma SetLinePreservesWellFormed(cart: Cart, itemId: string, quantity: nat)
    requires WellFormed(cart)
    requires SetLine(cart, itemId, quantity).Ok?
    ensures WellFormed(SetLine(cart, itemId, quantity).value)
  {
    var i := LineIndex(cart, itemId).value;
    var r := SetLine(cart, itemId, quantity).value;
    if quantity == 0 {
      assert forall k :: 0 <= k < |r| ==> r[k] == (if k < i then cart[k] else cart[k + 1]);
    }
  }

  /** Both handlers keep every stored cart well formed. */
  lemma HandlersPreserveWellFormed(db: Db, userId: Option<string>, itemId: string, quantity: Option<int>)
    requires forall k :: 0 <= k < |db| ==> WellFormed(db[k].user.cartData)
    ensures var db' := AddToCart(db, userId, itemId, quantity).db;
      forall k :: 0 <= k < |db'| ==> WellFormed(db'[k].user.cartData)
    ensures var db' := UpdateCart(db, userId, itemId, quantity).db;
      forall k :: 0 <= k < |db'| ==> WellFormed(db'[k].user.cartData)
  {
    if AddToCart(db, userId, itemId, quantity).result.Ok? {
      var i := FindById(db, userId).value;
      AddLinePreservesWellFormed(db[i].user.cartData, itemId, quantity.value);
    }
    if UpdateCart(db, userId, itemId, quantity).result.Ok? {
      var i := FindById(db, userId).value;
      SetLinePreservesWellFormed(db[i].user.cartData, itemId, quantity.value);
    }
  }

  // ---- read after write ----

  /** After a successful `addToCart`, `getUserCart` returns the cart the handler answered with. */
  lemma AddThenGet(db: Db, userId: Option<string>, itemId: string, quantity: Option<int>)
    ensures var step := AddToCart(db, userId, itemId, quantity);
      step.result.Ok? ==> GetUserCart(step.db, userId) == step.result
  {
    var step := AddToCart(db, userId, itemId, quantity);
    if step.result.Ok? {
      FindByIdAfterSetCart(db, FindById(db, userId).value, step.result.value, userId);
    }
  }

  /** After a successful `updateCart`, `getUserCart` returns the edited cart. */
  lemma UpdateThenGet(db: Db, userId: Option<string>, itemId: string, quantity: Option<int>)
    ensures var step := UpdateCart(db, userId, itemId, quantity);
      step.result.Ok? ==> GetUserCart(step.db, userId) == step.result
  {
    var step := UpdateCart(db, userId, itemId, quantity);
    if step.result.Ok? {
      FindByIdAfterSetCart(db, FindById(db, userId).value, step.result.value, userId);
    }
  }

  /** A failed handler leaves every user's cart as `getUserCart` saw it. */
  lemma FailedEditKeepsCarts(db: Db, userId: Option<string>, itemId: string, quantity: Option<int>, reader: Option<string>)
    ensures AddToCart(db, userId, itemId, quantity).result.Err? ==>
      GetUserCart(AddToCart(db, userId, itemId, quantity).db, reader) == GetUserCart(db, reader)
    ensures UpdateCart(db, userId, itemId, quantity).result.Err? ==>
      GetUserCart(UpdateCart(db, userId, itemId, quantity).db, reader) == GetUserCart(db, reader)
  {
  }
}

=== FILE: crypto.dfy ===
/** The foreign primitives the handlers call, kept uninterpreted: JSON web
    tokens (`jsonwebtoken`), password hashing (`bcrypt`) and the process
    configuration. Each is a value of a datatype whose fields are functions,
    so every operation of the model takes them as parameters and nothing is
    assumed about them beyond what a lemma states in its `requires`. */
module Crypto {
  import opened Basics

  /** What a token carries: user tokens are signed over the object `{id}`,
      the admin token over a bare string. */
  datatype Payload = IdPayload(id: string) | StringPayload(text: string)

  /** `decoded.id`: an object payload yields its id; a string has no `id` property. */
  function IdOf(p: Payload): Option<string> {
    match p
    case IdPayload(id) => Some(id)
    case StringPayload(_) => None
  }

  /** `jwt.sign` and `jwt.verify` with the configured secret; verification either
      returns the payload or fails with the library's error message. */
  datatype Jwt = Jwt(sign: Payload -> string, verify: string -> Result<Payload, string>) {

    /** The one property assumed of the library: a token it signed verifies to its
        payload. A signed token is also non-empty and holds no space (it is three
        base64url segments joined by dots), so it survives a `Bearer` header. */
    ghost predicate Sound() {
      forall p :: verify(sign(p)) == Ok(p) && sign(p) != "" && ' ' !in sign(p)
    }
  }

  /** `bcrypt.hash(password, salt)` and `bcrypt.compare(plain, hashed)`. */
  datatype Hasher = Hasher(hash: (string, string) -> string, compare: (string, string) -> bool) {

    /** A hash compares equal to the password it was made from. */
    ghost predicate Sound() {
      forall p, salt :: compare(p, hash(p, salt))
    }
  }

  /** `process.env.ADMIN_EMAIL` and `process.env.ADMIN_PASSWORD`. */
  datatype Env = Env(adminEmail: string, adminPassword: string)
}

=== FILE: order_controller.dfy ===
/** Order placement and listing: `placeOrder` validates the request body and
    builds the order record; `userOrders` selects the caller's orders and
    sorts them newest first. The order collection is a sequence of records. */
module OrderController {
  import opened Basics

  /** A line of the order as the client sends it; the handler stores it without looking inside. */
  datatype OrderItem = OrderItem(itemId: string, quantity: int)

  /** The request's `address` object; `None` marks a field that is absent. */
  datatype AddressInput = AddressInput(
    fullName: Option<string>,
    phoneNumber: Option<string>,
    pincode: Option<string>,
    city: Option<string>,
    state: Option<string>,
    apartment: Option<string>,
    locality: Option<string>)

  /** The stored address: every field is a string. */
  datatype Address = Address(
    fullName: string,
    phoneNumber: string,
    pincode: string,
    city: string,
    state: string,
    apartment: string,
    locality: string)

  /** The request body; `items` is `None` when it is not an array. */
  datatype PlaceRequest = PlaceRequest(
    items: Option<seq<OrderItem>>,
    amount: Option<int>,
    address: Option<AddressInput>,
    paymentMethod: Option<string>)

  /** A stored order. `userId` is whatever the authentication step attached, possibly nothing. */
  datatype Order = Order(
    userId: Option<string>,
    items: seq<OrderItem>,
    amount: int,
    address: Address,
    paymentMethod: string,
    payment: bool,
    status: string,
    date: int)

  /** The status every new order starts in. */
  const OrderPlaced := "order placed"

  /** The payment method that leaves an order unpaid. */
  const CashOnDelivery := "COD"

  datatype OrderError = MissingFields | AddressFieldsMissing | NotAuthenticated | NoOrders {
    function Status(): int {
      match this
      case MissingFields => 400
      case AddressFieldsMissing => 400
      case NotAuthenticated => 400
      case NoOrders => 404
    }
  }

  /** A string field that JavaScript treats as truthy: present and not "". */
  predicate Present(s: Option<string>) {
    s.Some? && s.value != ""
  }

  /** `value || ''`. */
  function OrEmpty(s: Option<string>): (r: string)
    ensures Present(s) ==> r == s.value
    ensures !Present(s) ==> r == ""
  {
    if Present(s) then s.value else ""
  }

  /** The first check: `items` a non-empty array, `amount` neither absent nor 0, an
      `address` object and a non-empty `paymentMethod`. */
  predicate BodyComplete(req: PlaceRequest) {
    && req.items.Some? && |req.items.value| > 0
    && req.amount.Some? && req.amount.value != 0
    && req.address.Some?
    && Present(req.paymentMethod)
  }

  /** The second check: the five required address fields are present. */
  predicate AddressComplete(a: AddressInput) {
    Present(a.fullName) && Present(a.phoneNumber) && Present(a.pincode) && Present(a.city) && Present(a.state)
  }

  /** `placeOrder`: validate, then build the order record at time `now` for `userId`. */
  function PlaceOrder(req: PlaceRequest, userId: Option<string>, now: int): (r: Result<Order, OrderError>)
    ensures r == Err(MissingFields) <==> !BodyComplete(req)
    ensures r == Err(AddressFieldsMissing) <==> BodyComplete(req) && !AddressComplete(req.address.value)
    ensures r.Ok? <==> BodyComplete(req) && AddressComplete(req.address.value)
    ensures r.Ok? ==>
      && r.value.userId == userId
      && r.value.items == req.items.value
      && r.value.amount == req.amount.value
      && r.value.paymentMethod == req.paymentMethod.value
      && r.value.status == OrderPlaced
      && r.value.date == now
  {
    if !BodyComplete(req) then Err(MissingFields)
    else
      var a := req.address.value;
      if !AddressComplete(a) then Err(AddressFieldsMissing)
      else
        var address := Address(OrEmpty(a.fullName), OrEmpty(a.phoneNumber), OrEmpty(a.pincode),
                               OrEmpty(a.city), OrEmpty(a.state), OrEmpty(a.apartment), OrEmpty(a.locality));
        var pm := req.paymentMethod.value;
        Ok(Order(userId, req.items.value, req.amount.value, address, pm, pm != CashOnDelivery, OrderPlaced, now))
  }

  /** Any non-zero amount passes validation, negative ones included; only 0 or no amount fails. */
  lemma AmountCheckIsOnlyNonZero(req: PlaceRequest, userId: Option<string>, now: int)
    requires req.items.Some? && |req.items.value| > 0 && req.address.Some? && Present(req.paymentMethod)
    requires AddressComplete(req.address.value)
    ensures PlaceOrder(req, userId, now).Ok? <==> req.amount.Some? && req.amount.value != 0
  {
  }

  /** The payment flag is false exactly for cash on delivery. */
  lemma PaymentFlag(req: PlaceRequest, userId: Option<string>, now: int)
    requires PlaceOrder(req, userId, now).Ok?
    ensures !PlaceOrder(req, userId, now).value.payment <==> req.paymentMethod == Some(CashOnDelivery)
  {
  }

  /** The stored address copies the required fields and turns an absent apartment or locality into "". */
  lemma AddressDefaults(req: PlaceRequest, userId: Option<string>, now: int)
    requires PlaceOrder(req, userId, now).Ok?
    ensures var a := req.address.value;
      var stored := PlaceOrder(req, userId, now).value.address;
      && stored.fullName == a.fullName.value && stored.phoneNumber == a.phoneNumber.value
      && stored.pincode == a.pincode.value && stored.city == a.city.value && stored.state == a.state.value
      && (a.apartment.None? ==> stored.apartment == "")
      && (a.locality.None? ==> stored.locality == "")
      && (Present(a.apartment) ==> stored.apartment == a.apartment.value)
      && (Present(a.locality) ==> stored.locality == a.locality.value)
  {
  }

  // ---- listing ----

  /** `find({ userId })`: the orders owned by `userId`, in collection order. */
  function OwnedBy(orders: seq<Order>, userId: string): (r: seq<Order>)
    ensures forall k :: 0 <= k < |r| ==> r[k].userId == Some(userId)
    ensures forall o :: multiset(r)[o] == (if o.userId == Some(userId) then multiset(orders)[o] else 0)
    decreases |orders|
  {
    if |orders| == 0 then []
    else
      var rest := OwnedBy(orders[1..], userId);
      assert orders == [orders[0]] + orders[1..];
      if orders[0].userId == Some(userId) then [orders[0]] + rest else rest
  }

  /** Newest first: dates never increase along the sequence. */
  predicate NewestFirst(s: seq<Order>) {
    forall i, j :: 0 <= i < j < |s| ==> s[i].date >= s[j].date
  }

  /** Insert `o` into a newest-first sequence, before every order that is not newer. */
  function InsertByDate(o: Order, s: seq<Order>): (r: seq<Order>)
    requires NewestFirst(s)
    ensures NewestFirst(r)
    ensures multiset(r) == multiset(s) + multiset{o}
    ensures |r| == |s| + 1 && (r[0] == o || (|s| > 0 && r[0] == s[0]))
    decreases |s|
  {
    if |s| == 0 || o.date >= s[0].date then [o] + s
    else
      var tail := InsertByDate(o, s[1..]);
      assert s == [s[0]] + s[1..];
      [s[0]] + tail
  }

  /** `.sort({ date: -1 })`: a newest-first arrangement of the same orders. */
  function SortNewestFirst(s: seq<Order>): (r: seq<Order>)
    ensures NewestFirst(r)
    ensures multiset(r) == multiset(s)
    decreases |s|
  {
    if |s| == 0 then []
    else
      assert s == [s[0]] + s[1..];
      InsertByDate(s[0], SortNewestFirst(s[1..]))
  }

  /** `userOrders`: no authenticated id is rejected; otherwise the caller's orders newest
      first, and an empty selection is reported as "No orders found". */
  function UserOrders(orders: seq<Order>, userId: Option<string>): (r: Result<seq<Order>, OrderError>)
    ensures r == Err(NotAuthenticated) <==> !Present(userId)
    ensures r == Err(NoOrders) <==> Present(userId) && forall k :: 0 <= k < |orders| ==> orders[k].userId != userId
    ensures r.Ok? <==> Present(userId) && exists k :: 0 <= k < |orders| && orders[k].userId == userId
    ensures r.Ok? ==> |r.value| > 0 && NewestFirst(r.value)
    ensures r.Ok? ==> forall o :: multiset(r.value)[o] == (if o.userId == userId then multiset(orders)[o] else 0)
  {
    if !Present(userId) then Err(NotAuthenticated)
    else
      var mine := OwnedBy(orders, userId.value);
      if |mine| == 0 then
        assert forall k :: 0 <= k < |orders| ==> orders[k].userId != userId by {
          forall k | 0 <= k < |orders|
            ensures orders[k].userId != userId
          {
            assert orders[k] in multiset(orders);
          }
        }
        Err(NoOrders)
      else
        assert exists k :: 0 <= k < |orders| && orders[k].userId == userId by {
          assert mine[0] in multiset(mine);
          assert mine[0] in multiset(orders);
        }
        Ok(SortNewestFirst(mine))
  }

  /** An order is listed for its owner exactly when it is in the collection. */
  lemma ListedIffOwned(orders: seq<Order>, userId: string, o: Order)
    requires UserOrders(orders, Some(userId)).Ok?
    ensures o in UserOrders(orders, Some(userId)).value <==> o in orders && o.userId == Some(userId)
  {
    var r := UserOrders(orders, Some(userId)).value;
    assert o in r <==> multiset(r)[o] > 0;
    assert o in orders <==> multiset(orders)[o] > 0;
  }
}

=== FILE: product_controller.dfy ===
/** Catalogue handlers: `addProduct`, `updateProduct`, `singleProduct` and
    `removeProduct`. Prices and discount arrive as the results of
    `Number(...)`; the uploaded image URLs are given, not computed. */
module ProductController {
  import opened Basics
  import opened ProductModel
  import opened Text

  datatype ProductError = MissingFields | NonPositivePrice | OldBelowNew | InvalidId | NotFound | ServerError {
    function Status(): int {
      match this
      case MissingFields => 400
      case NonPositivePrice => 400
      case OldBelowNew => 400
      case InvalidId => 400
      case NotFound => 404
      case ServerError => 500
    }
  }

  /** The catalogue: products by id. */
  type Store = map<string, Product>

  /** `Number(x) > 0 ? Number(x) : 0`. */
  function PositiveOrZero(n: Num): (r: int)
    ensures r >= 0
    ensures r > 0 <==> n.Finite? && n.v > 0
    ensures r > 0 ==> r == n.v
  {
    if n.Finite? && n.v > 0 then n.v else 0
  }

  /** `(Number(d) >= 0 && Number(d) <= 100) ? Number(d) : 0`: out of range is silently 0. */
  function ClampDiscount(n: Num): (r: int)
    ensures 0 <= r <= 100
    ensures n.Finite? && 0 <= n.v <= 100 ==> r == n.v
    ensures !(n.Finite? && 0 <= n.v <= 100) ==> r == 0
  {
    if n.Finite? && 0 <= n.v <= 100 then n.v else 0
  }

  /** The price rule both handlers apply to the normalised prices. */
  function CheckPrices(oldprice: int, newprice: int): (r: Option<ProductError>)
    ensures r.None? <==> oldprice > 0 && newprice > 0 && oldprice >= newprice
    ensures r == Some(NonPositivePrice) <==> oldprice <= 0 || newprice <= 0
    ensures r == Some(OldBelowNew) <==> 0 < oldprice < newprice
  {
    if oldprice <= 0 || newprice <= 0 then Some(NonPositivePrice)
    else if oldprice < newprice then Some(OldBelowNew)
    else None
  }

  /** The body of `addProduct`; `discount` and `rating` are `None` when undefined. */
  datatype AddRequest = AddRequest(
    name: string,
    description: string,
    category: string,
    oldprice: Num,
    newprice: Num,
    discount: Option<Num>,
    rating: Option<Num>)

  /** The fields `addProduct` requires: the three strings, and a discount and a rating that are defined. */
  predicate AddFieldsPresent(req: AddRequest) {
    req.name != "" && req.description != "" && req.category != "" && req.discount.Some? && req.rating.Some?
  }

  /** `addProduct`: required fields, then prices, then the schema on `save()` (a failure there
      is the catch-all server error). `imageUrls` are the uploads' URLs, `now` is `Date.now()`. */
  function AddProduct(req: AddRequest, imageUrls: seq<string>, now: int): (r: Result<Product, ProductError>)
    ensures !AddFieldsPresent(req) ==> r == Err(MissingFields)
    ensures AddFieldsPresent(req) && CheckPrices(PositiveOrZero(req.oldprice), PositiveOrZero(req.newprice)).Some? ==>
      r == Err(CheckPrices(PositiveOrZero(req.oldprice), PositiveOrZero(req.newprice)).value)
    ensures r.Ok? <==>
      && AddFieldsPresent(req) && CheckPrices(PositiveOrZero(req.oldprice), PositiveOrZero(req.newprice)).None?
      && req.rating.value.Finite? && 0 <= req.rating.value.v <= 5
    ensures r == Err(ServerError) <==>
      && AddFieldsPresent(req) && CheckPrices(PositiveOrZero(req.oldprice), PositiveOrZero(req.newprice)).None?
      && !(req.rating.value.Finite? && 0 <= req.rating.value.v <= 5)
    ensures r.Ok? ==> Valid(r.value)
    ensures r.Ok? ==>
      && req.oldprice.Finite? && req.newprice.Finite? && r.value.oldprice == req.oldprice.v
      && r.value.newprice == req.newprice.v && r.value.oldprice >= r.value.newprice > 0
    ensures r.Ok? ==> r.value.discount == ClampDiscount(req.discount.value) && r.value.discount <= 100
    ensures r.Ok? ==> req.rating.value.Finite? && r.value.rating == req.rating.value.v
    ensures r.Ok? ==>
      && r.value.name == req.name && r.value.description == req.description
      && r.value.category == req.category && r.value.image == imageUrls && r.value.date == now
  {
    if !AddFieldsPresent(req) then Err(MissingFields)
    else
      var oldprice := PositiveOrZero(req.oldprice);
      var newprice := PositiveOrZero(req.newprice);
      var discount := ClampDiscount(req.discount.value);
      match CheckPrices(oldprice, newprice)
      case Some(e) => Err(e)
      case None =>
        var d := Draft(req.name, req.description, newprice, oldprice, discount, imageUrls, req.category, now, req.rating);
        match Save(d)
        case None => Err(ServerError)
        case Some(p) => Ok(p)
  }

  /** A price that is not a positive number is rejected, whatever the other price. */
  lemma NonPositivePriceRejected(req: AddRequest, imageUrls: seq<string>, now: int)
    requires AddFieldsPresent(req)
    requires !(req.oldprice.Finite? && req.oldprice.v > 0)
    ensures AddProduct(req, imageUrls, now) == Err(NonPositivePrice)
  {
  }

  /** An old price below the new one is rejected; equal prices pass the price rule. */
  lemma PriceOrdering(req: AddRequest, imageUrls: seq<string>, now: int, before: int, after: int)
    requires AddFieldsPresent(req)
    requires req.oldprice == Finite(before) && req.newprice == Finite(after) && before > 0 && after > 0
    ensures before < after ==> AddProduct(req, imageUrls, now) == Err(OldBelowNew)
    ensures before >= after ==> AddProduct(req, imageUrls, now).Err? ==> AddProduct(req, imageUrls, now) == Err(ServerError)
  {
  }

  /** A discount outside [0, 100] does not reject the product: it is stored as 0. */
  lemma OutOfRangeDiscountStoredAsZero(req: AddRequest, imageUrls: seq<string>, now: int)
    requires AddProduct(req, imageUrls, now).Ok?
    requires !(req.discount.value.Finite? && 0 <= req.discount.value.v <= 100)
    ensures AddProduct(req, imageUrls, now).value.discount == 0
  {
  }

  /** The body of `updateProduct`, each number already passed through `Number(...)`
      (so an absent field is `NaN`); an empty string is an absent text field. */
  datatype UpdateRequest = UpdateRequest(
    id: string,
    name: string,
    description: string,
    category: string,
    oldprice: Num,
    newprice: Num,
    discount: Num,
    rating: Num)

  /** `a || b` on strings. */
  function OrString(a: string, b: string): (r: string)
    ensures a != "" ==> r == a
    ensures a == "" ==> r == b
  {
    if a != "" then a else b
  }

  /** `a || b` on numbers: 0 and `NaN` are falsy. */
  function OrNumber(a: Num, b: int): (r: int)
    ensures a.Finite? && a.v != 0 ==> r == a.v
    ensures a.NaN? || a == Finite(0) ==> r == b
  {
    if a.Finite? && a.v != 0 then a.v else b
  }

  /** The field merge of `updateProduct`: a falsy new value keeps the stored one, and the
      images are replaced only when at least one file was uploaded. */
  function Merge(p: Product, req: UpdateRequest, oldprice: int, newprice: int, uploads: seq<string>): (r: Draft)
    ensures r.date == p.date
    ensures req.name == "" ==> r.name == p.name
    ensures req.description == "" ==> r.description == p.description
    ensures req.category == "" ==> r.category == p.category
    ensures |uploads| == 0 ==> r.image == p.image
    ensures oldprice > 0 && newprice > 0 ==> r.oldprice == oldprice && r.newprice == newprice
    ensures ClampDiscount(req.discount) == 0 ==> r.discount == p.discount
    ensures r.rating.Some? && r.rating.value.Finite?
    ensures !(req.rating.Finite? && req.rating.v != 0) ==> r.rating == Some(Finite(p.rating))
  {
    Draft(
      OrString(req.name, p.name),
      OrString(req.description, p.description),
      OrNumber(Finite(newprice), p.newprice),
      OrNumber(Finite(oldprice), p.oldprice),
      OrNumber(Finite(ClampDiscount(req.discount)), p.discount),
      if |uploads| > 0 then uploads else p.image,
      OrString(req.category, p.category),
      p.date,
      Some(Finite(OrNumber(req.rating, p.rating))))
  }

  /** `updateProduct`: unknown id first, then the same price rule as `addProduct`, then the
      merge, then the schema on `save()`. On success the caller stores the result under `req.id`. */
  function UpdateProduct(store: Store, req: UpdateRequest, uploads: seq<string>): (r: Result<Product, ProductError>)
    ensures r == Err(NotFound) <==> req.id !in store
    ensures req.id in store ==>
      (r == Err(NonPositivePrice) <==> !(PositiveOrZero(req.oldprice) > 0 && PositiveOrZero(req.newprice) > 0))
    ensures req.id in store && CheckPrices(PositiveOrZero(req.oldprice), PositiveOrZero(req.newprice)).Some? ==>
      r == Err(CheckPrices(PositiveOrZero(req.oldprice), PositiveOrZero(req.newprice)).value)
    ensures req.id in store && CheckPrices(PositiveOrZero(req.oldprice), PositiveOrZero(req.newprice)).None? ==>
      var merged := Merge(store[req.id], req, PositiveOrZero(req.oldprice), PositiveOrZero(req.newprice), uploads);
      && (r.Ok? <==> Save(merged).Some?)
      && (r == Err(ServerError) <==> Save(merged).None?)
    ensures r.Ok? ==> Valid(r.value)
    ensures r.Ok? ==>
      && req.oldprice.Finite? && req.newprice.Finite? && r.value.oldprice == req.oldprice.v
      && r.value.newprice == req.newprice.v && r.value.oldprice >= r.value.newprice > 0
    ensures r.Ok? ==> var p := store[req.id];
      && r.value.name == (if req.name != "" then req.name else p.name)
      && r.value.description == (if req.description != "" then req.description else p.description)
      && r.value.category == (if req.category != "" then req.category else p.category)
      && r.value.discount == (if ClampDiscount(req.discount) != 0 then ClampDiscount(req.discount) else p.discount)
      && r.value.rating == (if req.rating.Finite? && req.rating.v != 0 then req.rating.v else p.rating)
      && r.value.image == (if |uploads| > 0 then uploads else p.image)
      && r.value.date == p.date
  {
    if req.id !in store then Err(NotFound)
    else
      var p := store[req.id];
      var oldprice := PositiveOrZero(req.oldprice);
      var newprice := PositiveOrZero(req.newprice);
      match CheckPrices(oldprice, newprice)
      case Some(e) => Err(e)
      case None =>
        match Save(Merge(p, req, oldprice, newprice, uploads))
        case None => Err(ServerError)
        case Some(q) => Ok(q)
  }

  /** A discount or rating of 0 cannot overwrite a stored non-zero value. */
  lemma ZeroCannotOverwrite(store: Store, req: UpdateRequest, uploads: seq<string>)
    requires UpdateProduct(store, req, uploads).Ok?
    requires req.discount == Finite(0) && req.rating == Finite(0)
    ensures UpdateProduct(store, req, uploads).value.discount == store[req.id].discount
    ensures UpdateProduct(store, req, uploads).value.rating == store[req.id].rating
  {
  }

  /** An update that repeats the stored prices and supplies nothing else gives back the stored product. */
  lemma EmptyUpdateKeepsProduct(store: Store, id: string)
    requires id in store && Valid(store[id])
    requires store[id].oldprice >= store[id].newprice > 0
    ensures var p := store[id];
      var req := UpdateRequest(id, "", "", "", Finite(p.oldprice), Finite(p.newprice), NaN, NaN);
      UpdateProduct(store, req, []) == Ok(p)
  {
  }

  /** Applying the same update twice changes nothing the first application did not. */
  lemma UpdateIdempotent(store: Store, req: UpdateRequest, uploads: seq<string>)
    requires UpdateProduct(store, req, uploads).Ok?
    ensures var once := UpdateProduct(store, req, uploads).value;
      UpdateProduct(store[req.id := once], req, uploads) == Ok(once)
  {
    var once := UpdateProduct(store, req, uploads).value;
    var store' := store[req.id := once];
    assert store'[req.id] == once;
  }

  /** The length of a MongoDB ObjectId in hexadecimal. */
  const ObjectIdLength := 24

  /** `singleProduct`: an id whose JavaScript length is not 24 is rejected before the lookup. */
  function SingleProduct(store: Store, productId: string): (r: Result<Product, ProductError>)
    ensures JsLength(productId) != ObjectIdLength ==> r == Err(InvalidId)
    ensures JsLength(productId) == ObjectIdLength && productId !in store ==> r == Err(NotFound)
    ensures r.Ok? <==> JsLength(productId) == ObjectIdLength && productId in store
    ensures r.Ok? ==> r.value == store[productId]
  {
    if productId == "" || JsLength(productId) != ObjectIdLength then Err(InvalidId)
    else if productId !in store then Err(NotFound)
    else Ok(store[productId])
  }

  /** `removeProduct`: delete the product with the id, or report that there is none. */
  function RemoveProduct(store: Store, id: string): (r: Result<Store, ProductError>)
    ensures r.Err? <==> id !in store
    ensures r.Err? ==> r.error == NotFound
    ensures r.Ok? ==> id !in r.value && r.value.Keys == store.Keys - {id}
    ensures r.Ok? ==> forall k :: k in r.value ==> r.value[k] == store[k]
  {
    if id !in store then Err(NotFound) else Ok(store - {id})
  }

  /** An update of a product that meets the schema succeeds once the prices pass, unless the
      rating given is a number outside [0, 5]. */
  lemma UpdateOfValidProductSaves(store: Store, req: UpdateRequest, uploads: seq<string>)
    requires req.id in store && Valid(store[req.id])
    requires CheckPrices(PositiveOrZero(req.oldprice), PositiveOrZero(req.newprice)).None?
    requires req.rating.NaN? || 0 <= req.rating.v <= 5
    ensures UpdateProduct(store, req, uploads).Ok?
  {
    var merged := Merge(store[req.id], req, PositiveOrZero(req.oldprice), PositiveOrZero(req.newprice), uploads);
    assert Valid(WithRating(merged, CastRating(merged.rating).value));
  }

  // ---- read after write ----

  /** After a product is removed, `singleProduct` no longer finds it, and every other id reads as before. */
  lemma RemoveThenSingle(store: Store, id: string, other: string)
    requires id in store
    ensures var after := RemoveProduct(store, id).value;
      && (JsLength(id) == ObjectIdLength ==> SingleProduct(after, id) == Err(NotFound))
      && (other != id ==> SingleProduct(after, other) == SingleProduct(store, other))
  {
  }

  /** After an updated product is stored under its id, `singleProduct` returns it. */
  lemma UpdateThenSingle(store: Store, req: UpdateRequest, uploads: seq<string>)
    requires JsLength(req.id) == ObjectIdLength
    ensures var r := UpdateProduct(store, req, uploads);
      r.Ok? ==> SingleProduct(store[req.id := r.value], req.id) == r
  {
  }
}

=== FILE: product_model.dfy ===
/** The product schema and its validation on `save()`. A draft is what a
    handler hands to the model before saving; saving casts the rating,
    applies the schema's default and bounds, and yields a `Product`. */
module ProductModel {
  import opened Basics

  /** The result of JavaScript's `Number(x)`: not a number, or an integer value. */
  datatype Num = NaN | Finite(v: int)

  /** A stored product. `image` is the list of uploaded image URLs. */
  datatype Product = Product(
    name: string,
    description: string,
    newprice: int,
    oldprice: int,
    discount: int,
    image: seq<string>,
    category: string,
    date: int,
    rating: int)

  /** The schema's invariants: required strings non-empty, prices and discount at least 0
      (no upper bound on the discount), rating within [0, 5]. `image` and `date` are always present. */
  predicate Valid(p: Product) {
    && p.name != "" && p.description != "" && p.category != ""
    && p.newprice >= 0 && p.oldprice >= 0 && p.discount >= 0
    && 0 <= p.rating <= 5
  }

  /** A product about to be saved; `rating` is `None` when the field is left unset. */
  datatype Draft = Draft(
    name: string,
    description: string,
    newprice: int,
    oldprice: int,
    discount: int,
    image: seq<string>,
    category: string,
    date: int,
    rating: Option<Num>)

  /** The rating the schema stores when none is given. */
  const DefaultRating := 0

  /** Casting the `rating` path: unset takes the schema's default, `NaN` fails the cast. */
  function CastRating(rating: Option<Num>): (r: Option<int>)
    ensures rating.None? ==> r == Some(DefaultRating)
    ensures r.None? <==> rating == Some(NaN)
    ensures rating.Some? && rating.value.Finite? ==> r == Some(rating.value.v)
  {
    match rating
    case None => Some(DefaultRating)
    case Some(NaN) => None
    case Some(Finite(v)) => Some(v)
  }

  /** The product a draft becomes once its rating is cast. */
  function WithRating(d: Draft, rating: int): Product {
    Product(d.name, d.description, d.newprice, d.oldprice, d.discount, d.image, d.category, d.date, rating)
  }

  /** `save()`: cast the rating, then run the validators; `None` is the thrown error. */
  function Save(d: Draft): (r: Option<Product>)
    ensures r.Some? <==> CastRating(d.rating).Some? && Valid(WithRating(d, CastRating(d.rating).value))
    ensures r.Some? ==> Valid(r.value) && r.value == WithRating(d, CastRating(d.rating).value)
  {
    match CastRating(d.rating)
    case None => None
    case Some(rating) => if Valid(WithRating(d, rating)) then Some(WithRating(d, rating)) else None
  }

  /** The schema alone bounds the discount only from below: a discount of 150 saves. */
  lemma SchemaAllowsLargeDiscount()
    ensures exists d :: Save(d).Some? && Save(d).value.discount > 100
  {
    var d := Draft("n", "d", 1, 1, 150, [], "c", 0, None);
    assert Save(d).Some?;
  }
}

=== FILE: sessions.dfy ===
/** How the tokens the account handlers issue fare at the two gates, assuming
    only that a signed token verifies to its payload (`Jwt.Sound`). */
module Sessions {
  import opened Basics
  import opened Crypto
  import opened Auth
  import opened UserController
  import OrderController

  /** The token `adminLogin` issues passes `adminAuth`. */
  lemma AdminTokenPassesAdminGate(env: Env, jwt: Jwt)
    requires jwt.Sound()
    ensures AdminLogin(env, jwt, env.adminEmail, env.adminPassword).Ok?
    ensures AdminAuth(env, jwt, Some(AdminLogin(env, jwt, env.adminEmail, env.adminPassword).value)) == AdminNext
  {
    var t := jwt.sign(AdminPayload(env));
    assert jwt.verify(t) == Ok(AdminPayload(env)) && t != "";
  }

  /** A token that passes `adminAuth` carries exactly the admin payload, so only the
      configured credentials produce it through `adminLogin`. */
  lemma AdminGateNeedsAdminCredentials(env: Env, jwt: Jwt, email: string, password: string)
    requires jwt.Sound()
    requires AdminLogin(env, jwt, email, password).Ok?
    ensures email == env.adminEmail && password == env.adminPassword
    ensures AdminAuth(env, jwt, Some(AdminLogin(env, jwt, email, password).value)) == AdminNext
  {
    AdminTokenPassesAdminGate(env, jwt);
  }

  /** A user token carries an `{ id }` object, never the admin string, so `adminAuth` refuses it. */
  lemma UserTokenFailsAdminGate(env: Env, jwt: Jwt, id: string)
    requires jwt.Sound()
    ensures AdminAuth(env, jwt, Some(CreateToken(jwt, id))).AdminReject?
  {
    var t := CreateToken(jwt, id);
    assert jwt.verify(t) == Ok(IdPayload(id));
  }

  /** A user token sent as `Bearer <token>` passes `authUser`, which attaches the user's id. */
  lemma UserTokenPassesUserGate(jwt: Jwt, id: string)
    requires jwt.Sound()
    ensures AuthUser(jwt, Some("Bearer " + CreateToken(jwt, id))) == UserNext(ReqUser(Some(id)))
  {
    var t := CreateToken(jwt, id);
    assert jwt.verify(t) == Ok(IdPayload(id)) && t != "" && ' ' !in t;
    BearerTokenOfHeader(t);
  }

  /** The admin token also passes `authUser`, but a string payload has no `id`, so the request
      carries no user id and `userOrders` answers "User not authenticated". */
  lemma AdminTokenAtUserGate(env: Env, jwt: Jwt, orders: seq<OrderController.Order>)
    requires jwt.Sound()
    ensures var t := AdminLogin(env, jwt, env.adminEmail, env.adminPassword).value;
      var gate := AuthUser(jwt, Some("Bearer " + t));
      && gate == UserNext(ReqUser(None))
      && OrderController.UserOrders(orders, gate.user.id) == Err(OrderController.NotAuthenticated)
  {
    var t := jwt.sign(AdminPayload(env));
    assert jwt.verify(t) == Ok(AdminPayload(env)) && t != "" && ' ' !in t;
    BearerTokenOfHeader(t);
  }

  /** `getUserData` with the token a registration issued answers the registered name and e-mail. */
  lemma RegisteredUserSeesProfile(db: UserModel.Db, hasher: Hasher, isEmail: string -> bool, jwt: Jwt,
                                  name: string, email: string, password: string, salt: string, newId: string)
    requires jwt.Sound()
    requires RegisterUser(db, hasher, isEmail, jwt, name, email, password, salt, newId).result.Ok?
    ensures var step := RegisterUser(db, hasher, isEmail, jwt, name, email, password, salt, newId);
      GetUserData(step.db, jwt, Some("Bearer " + step.result.value)) == Ok(Profile(name, Some(email)))
  {
    var step := RegisterUser(db, hasher, isEmail, jwt, name, email, password, salt, newId);
    var t := CreateToken(jwt, newId);
    assert jwt.verify(t) == Ok(IdPayload(newId)) && t != "" && ' ' !in t;
    BearerTokenOfHeader(t);
    assert step.db[|db|].id == newId;
    FirstIndexIsUnique(step.db, (d: UserModel.UserDoc) => d.id == newId, |db|);
  }
}

=== FILE: text.dfy ===
/** String helpers: character search and JavaScript's `String.prototype.split`
    with a one-character separator, together with its inverse `Join`. */
module Text {
  import opened Basics

  /** The character class `\w` of a non-Unicode JavaScript regular expression. */
  predicate IsWordChar(c: char) {
    ('a' <= c <= 'z') || ('A' <= c <= 'Z') || ('0' <= c <= '9') || c == '_'
  }

  /** The character class `\d`. */
  predicate IsDigit(c: char) {
    '0' <= c <= '9'
  }

  /** Position of the first occurrence of `c` in `s` (`indexOf`, with `None` for -1). */
  function IndexOf(s: string, c: char): (r: Option<nat>)
    ensures r.Some? ==> r.value < |s| && s[r.value] == c && c !in s[..r.value]
    ensures r.None? <==> c !in s
  {
    var r := FirstIndex(s, (x: char) => x == c);
    assert r.Some? ==> forall j :: 0 <= j < r.value ==> s[..r.value][j] != c;
    r
  }

  /** The first occurrence of `c` in `a + [c] + b` is right after `a` when `a` lacks `c`. */
  lemma IndexOfAfterPrefix(a: string, c: char, b: string)
    requires c !in a
    ensures IndexOf(a + [c] + b, c) == Some(|a|)
  {
    var s := a + [c] + b;
    assert s[|a|] == c;
    assert forall j :: 0 <= j < |a| ==> s[j] == a[j];
  }

  /** `s.split(c)`: the maximal pieces of `s` between occurrences of `c`; at least one piece. */
  function Split(s: string, c: char): (r: seq<string>)
    ensures |r| >= 1
    ensures forall k :: 0 <= k < |r| ==> c !in r[k]
    decreases |s|
  {
    match IndexOf(s, c)
    case None => [s]
    case Some(i) => [s[..i]] + Split(s[i + 1..], c)
  }

  /** `parts.join(c)`. */
  function Join(parts: seq<string>, c: char): string
    requires |parts| >= 1
  {
    if |parts| == 1 then parts[0] else parts[0] + [c] + Join(parts[1..], c)
  }

  /** Splitting loses nothing: joining the pieces with the separator gives back the string. */
  lemma {:induction false} JoinSplit(s: string, c: char)
    ensures Join(Split(s, c), c) == s
    decreases |s|
  {
    match IndexOf(s, c)
    case None =>
    case Some(i) =>
      JoinSplit(s[i + 1..], c);
      var parts := Split(s, c);
      assert parts[1..] == Split(s[i + 1..], c);
      assert s == s[..i] + [c] + s[i + 1..];
  }

  /** Joining pieces that do not contain the separator and splitting again gives the pieces back. */
  lemma {:induction false} SplitJoin(parts: seq<string>, c: char)
    requires |parts| >= 1
    requires forall k :: 0 <= k < |parts| ==> c !in parts[k]
    ensures Split(Join(parts, c), c) == parts
    decreases |parts|
  {
    if |parts| == 1 {
      assert IndexOf(parts[0], c).None?;
    } else {
      var rest := Join(parts[1..], c);
      IndexOfAfterPrefix(parts[0], c, rest);
      var s := parts[0] + [c] + rest;
      assert s[..|parts[0]|] == parts[0];
      assert s[|parts[0]| + 1..] == rest;
      SplitJoin(parts[1..], c);
      assert parts == [parts[0]] + parts[1..];
    }
  }

  // ---- JavaScript string length ----

  /** The number of UTF-16 code units that encode `c`: two for a character outside the
      Basic Multilingual Plane, one otherwise. */
  function CodeUnits(c: char): nat {
    if c as int > 0xFFFF then 2 else 1
  }

  /** JavaScript's `s.length`, which counts UTF-16 code units, not characters. */
  function JsLength(s: string): (r: nat)
    ensures |s| <= r <= 2 * |s|
    decreases |s|
  {
    if |s| == 0 then 0 else JsLength(s[..|s| - 1]) + CodeUnits(s[|s| - 1])
  }

  /** A string of Basic Multilingual Plane characters has one code unit per character. */
  lemma {:induction false} JsLengthOfBmp(s: string)
    requires forall k :: 0 <= k < |s| ==> s[k] as int <= 0xFFFF
    ensures JsLength(s) == |s|
    decreases |s|
  {
    if |s| > 0 {
      JsLengthOfBmp(s[..|s| - 1]);
    }
  }

  /** Appending a character adds its code units; with `JsLengthOfBmp` this pins the length of
      any string built character by character. */
  lemma JsLengthAppend(s: string, c: char)
    ensures JsLength(s + [c]) == JsLength(s) + CodeUnits(c)
  {
    assert (s + [c])[..|s|] == s;
  }

  /** Four characters outside the Basic Multilingual Plane have length 8 in JavaScript. */
  lemma AstralLength()
    ensures |"\U{1F600}\U{1F600}\U{1F600}\U{1F600}"| == 4
    ensures JsLength("\U{1F600}\U{1F600}\U{1F600}\U{1F600}") == 8
  {
    var e := '\U{1F600}';
    assert CodeUnits(e) == 2;
    JsLengthAppend([], e);
    assert [] + [e] == [e];
    JsLengthAppend([e], e);
    assert [e] + [e] == [e, e];
    JsLengthAppend([e, e], e);
    assert [e, e] + [e] == [e, e, e];
    JsLengthAppend([e, e, e], e);
    assert [e, e, e] + [e] == [e, e, e, e] == "\U{1F600}\U{1F600}\U{1F600}\U{1F600}";
  }
}

=== FILE: user_controller.dfy ===
/** Account handlers: `loginUser`, `registerUser`, `adminLogin`, `getUserData`
    and `updateUser`. Every handler answers `{ success: false, message }` on a
    failure, so a failure is a `UserError` whose `Message` is the text the
    handler sends. `validator.isEmail` is the parameter `isEmail`; salts come
    from `bcrypt.genSalt` and new ids from the database, both as parameters. */
module UserController {
  import opened Basics
  import opened Crypto
  import opened UserModel
  import opened Text
  import Auth

  datatype UserError =
    | UserDoesNotExist
    | InvalidLogin
    | AlreadyRegistered
    | InvalidEmail
    | WeakPassword
    | WeakNewPassword
    | SaveRejected(cause: SaveError)
    | InvalidCredentials
    | NoTokenProvided
    | UserNotFound
    | InvalidCurrentPassword
    | FetchFailed
    | UpdateFailed
  {
    /** The `message` the handler answers with; for a rejected save, the leading words of
        the message the database library puts in the error it throws. */
    function Message(): string {
      match this
      case UserDoesNotExist => "User Does Not Exist"
      case InvalidLogin => "Invalid Email or Password"
      case AlreadyRegistered => "User already registered"
      case InvalidEmail => "Enter a valid email"
      case WeakPassword => "Please use a strong password"
      case WeakNewPassword => "Please use a strong password (at least 8 characters)"
      case SaveRejected(ValidationFailed) => "User validation failed"
      case SaveRejected(DuplicateKey) => "E11000 duplicate key error"
      case InvalidCredentials => "Invalid credentials"
      case NoTokenProvided => "No token provided"
      case UserNotFound => "User not found"
      case InvalidCurrentPassword => "Invalid current password"
      case FetchFailed => "Error fetching user data"
      case UpdateFailed => "Error updating user"
    }
  }

  /** The shortest password the handlers accept. */
  const MinPasswordLength := 8

  /** `createToken(id)`: a token over the object `{ id }`. */
  function CreateToken(jwt: Jwt, id: string): (r: string)
    ensures jwt.Sound() ==> jwt.verify(r) == Ok(IdPayload(id)) && r != "" && ' ' !in r
  {
    jwt.sign(IdPayload(id))
  }

  /** `loginUser`: look the user up by e-mail, then compare the password with the stored hash. */
  function LoginUser(db: Db, hasher: Hasher, jwt: Jwt, email: string, password: string): (r: Result<string, UserError>)
    ensures r == Err(UserDoesNotExist) <==> FindByEmail(db, email).None?
    ensures r == Err(InvalidLogin) <==>
      FindByEmail(db, email).Some? && !hasher.compare(password, db[FindByEmail(db, email).value].user.password)
    ensures r.Ok? <==>
      FindByEmail(db, email).Some? && hasher.compare(password, db[FindByEmail(db, email).value].user.password)
    ensures r.Ok? ==> var i := FindByEmail(db, email).value;
      hasher.compare(password, db[i].user.password) && r.value == CreateToken(jwt, db[i].id)
  {
    match FindByEmail(db, email)
    case None => Err(UserDoesNotExist)
    case Some(i) =>
      if hasher.compare(password, db[i].user.password) then Ok(CreateToken(jwt, db[i].id))
      else Err(InvalidLogin)
  }

  datatype Step<T> = Step(result: Result<T, UserError>, db: Db)

  /** The document `registerUser` saves: the password hashed with `salt`, no phone, an empty cart. */
  function Registration(hasher: Hasher, name: string, email: string, password: string, salt: string, newId: string): UserDoc {
    UserDoc(newId, User(name, Some(email), None, hasher.hash(password, salt), []))
  }

  /** `registerUser`: an existing e-mail first, then the e-mail's format, then the password's
      length in UTF-16 code units; then the new document (id `newId`) is saved. */
  function RegisterUser(db: Db, hasher: Hasher, isEmail: string -> bool, jwt: Jwt,
                        name: string, email: string, password: string, salt: string, newId: string): (r: Step<string>)
    ensures r.result.Err? ==> r.db == db
    ensures FindByEmail(db, email).Some? ==> r.result == Err(AlreadyRegistered)
    ensures FindByEmail(db, email).None? && !isEmail(email) ==> r.result == Err(InvalidEmail)
    ensures FindByEmail(db, email).None? && isEmail(email) && JsLength(password) < MinPasswordLength ==>
      r.result == Err(WeakPassword)
    ensures FindByEmail(db, email).None? && isEmail(email) && JsLength(password) >= MinPasswordLength ==>
      var doc := Registration(hasher, name, email, password, salt, newId);
      && (r.result.Ok? <==> Insert(db, doc).Ok?)
      && (Insert(db, doc).Err? ==> r.result == Err(SaveRejected(Insert(db, doc).error)))
    ensures r.result.Ok? ==>
      && FindByEmail(db, email).None? && isEmail(email) && JsLength(password) >= MinPasswordLength
      && r.db == db + [Registration(hasher, name, email, password, salt, newId)]
      && r.result.value == CreateToken(jwt, newId)
  {
    if FindByEmail(db, email).Some? then Step(Err(AlreadyRegistered), db)
    else if !isEmail(email) then Step(Err(InvalidEmail), db)
    else if JsLength(password) < MinPasswordLength then Step(Err(WeakPassword), db)
    else
      var doc := Registration(hasher, name, email, password, salt, newId);
      match Insert(db, doc)
      case Err(e) => Step(Err(SaveRejected(e)), db)
      case Ok(db') => Step(Ok(CreateToken(jwt, newId)), db')
  }

  /** `adminLogin`: both values must equal the configured ones; the token is signed over
      their concatenation. */
  function AdminLogin(env: Env, jwt: Jwt, email: string, password: string): (r: Result<string, UserError>)
    ensures r.Ok? <==> email == env.adminEmail && password == env.adminPassword
    ensures r.Ok? ==> r.value == jwt.sign(StringPayload(email + password))
    ensures r.Err? ==> r.error == InvalidCredentials
  {
    if email == env.adminEmail && password == env.adminPassword then Ok(jwt.sign(StringPayload(email + password)))
    else Err(InvalidCredentials)
  }

  /** The fields `getUserData` and `updateUser` send back. */
  datatype Profile = Profile(name: string, email: Option<string>)

  /** The index of the document a header's token designates, or the failure to find it;
      `verifyFailure` is the catch-all answer of the calling handler. */
  function Authenticate(db: Db, jwt: Jwt, authorization: Option<string>, verifyFailure: UserError): (r: Result<nat, UserError>)
    ensures Auth.BearerToken(authorization).None? ==> r == Err(NoTokenProvided)
    ensures Auth.BearerToken(authorization).Some? && jwt.verify(Auth.BearerToken(authorization).value).Err? ==>
      r == Err(verifyFailure)
    ensures Auth.BearerToken(authorization).Some? && jwt.verify(Auth.BearerToken(authorization).value).Ok? ==>
      var id := IdOf(jwt.verify(Auth.BearerToken(authorization).value).value);
      && (FindById(db, id).None? ==> r == Err(UserNotFound))
      && (FindById(db, id).Some? ==> r == Ok(FindById(db, id).value))
    ensures r.Ok? ==>
      && Auth.BearerToken(authorization).Some?
      && jwt.verify(Auth.BearerToken(authorization).value).Ok?
      && FindById(db, IdOf(jwt.verify(Auth.BearerToken(authorization).value).value)) == Some(r.value)
    ensures r.Err? ==> r.error in {NoTokenProvided, verifyFailure, UserNotFound}
  {
    match Auth.BearerToken(authorization)
    case None => Err(NoTokenProvided)
    case Some(token) =>
      match jwt.verify(token)
      case Err(_) => Err(verifyFailure)
      case Ok(decoded) =>
        match FindById(db, IdOf(decoded))
        case None => Err(UserNotFound)
        case Some(i) => Ok(i)
  }

  /** `getUserData`: only the name and e-mail of the token's user are exposed. */
  function GetUserData(db: Db, jwt: Jwt, authorization: Option<string>): (r: Result<Profile, UserError>)
    ensures r.Err? <==> Authenticate(db, jwt, authorization, FetchFailed).Err?
    ensures r.Err? ==> r == Err(Authenticate(db, jwt, authorization, FetchFailed).error)
    ensures r.Ok? ==> var i := Authenticate(db, jwt, authorization, FetchFailed).value;
      r.value == Profile(db[i].user.name, db[i].user.email)
  {
    match Authenticate(db, jwt, authorization, FetchFailed)
    case Err(e) => Err(e)
    case Ok(i) => Ok(Profile(db[i].user.name, db[i].user.email))
  }

  /** The body of `updateUser`; an empty string is an absent field. */
  datatype UpdateRequest = UpdateRequest(name: string, email: string, password: string, newPassword: string)

  /** The user after a successful update: the password only when both passwords were given,
      the name and e-mail only when provided, everything else untouched. */
  function Updated(u: User, hasher: Hasher, req: UpdateRequest, salt: string): (r: User)
    ensures r.phone == u.phone && r.cartData == u.cartData
    ensures req.password != "" && req.newPassword != "" ==> r.password == hasher.hash(req.newPassword, salt)
    ensures req.password == "" || req.newPassword == "" ==> r.password == u.password
    ensures req.name == "" ==> r.name == u.name
    ensures req.name != "" ==> r.name == req.name
    ensures req.email == "" ==> r.email == u.email
    ensures req.email != "" ==> r.email == Some(req.email)
  {
    var password := if req.password != "" && req.newPassword != "" then hasher.hash(req.newPassword, salt) else u.password;
    u.(name := if req.name != "" then req.name else u.name,
       email := if req.email != "" then Some(req.email) else u.email,
       password := password)
  }

  /** The checks `updateUser` makes before saving: a provided e-mail is well formed, and when both
      passwords are given the new one is long enough and the current one matches the stored hash. */
  predicate UpdateAdmissible(u: User, hasher: Hasher, isEmail: string -> bool, req: UpdateRequest) {
    && !(req.email != "" && !isEmail(req.email))
    && !(req.password != "" && req.newPassword != "" &&
         (JsLength(req.newPassword) < MinPasswordLength || !hasher.compare(req.password, u.password)))
  }

  /** `updateUser`: authenticate; an invalid new e-mail; then, when both passwords are given, a
      short new password before the current one is compared, then a wrong current password;
      then the save (validators and unique indexes). Nothing is written on any failure. */
  function UpdateUser(db: Db, hasher: Hasher, isEmail: string -> bool, jwt: Jwt,
                      authorization: Option<string>, req: UpdateRequest, salt: string): (r: Step<Profile>)
    ensures r.result.Err? ==> r.db == db
    ensures Authenticate(db, jwt, authorization, UpdateFailed).Err? ==>
      r.result == Err(Authenticate(db, jwt, authorization, UpdateFailed).error)
    ensures Authenticate(db, jwt, authorization, UpdateFailed).Ok? ==>
      var i := Authenticate(db, jwt, authorization, UpdateFailed).value;
      && (req.email != "" && !isEmail(req.email) ==> r.result == Err(InvalidEmail))
      && (!(req.email != "" && !isEmail(req.email)) && req.password != "" && req.newPassword != "" ==>
            && (JsLength(req.newPassword) < MinPasswordLength ==> r.result == Err(WeakNewPassword))
            && (JsLength(req.newPassword) >= MinPasswordLength && !hasher.compare(req.password, db[i].user.password) ==>
                  r.result == Err(InvalidCurrentPassword)))
      && (UpdateAdmissible(db[i].user, hasher, isEmail, req) ==>
            var saved := Replace(db, i, Updated(db[i].user, hasher, req, salt));
            && (r.result.Ok? <==> saved.Ok?)
            && (saved.Err? ==> r.result == Err(UpdateFailed)))
      && (r.result.Ok? ==> UpdateAdmissible(db[i].user, hasher, isEmail, req))
      && (r.result.Ok? ==>
            && Replace(db, i, Updated(db[i].user, hasher, req, salt)) == Ok(r.db)
            && r.result.value == Profile(r.db[i].user.name, r.db[i].user.email))
  {
    match Authenticate(db, jwt, authorization, UpdateFailed)
    case Err(e) => Step(Err(e), db)
    case Ok(i) =>
      var u := db[i].user;
      if req.email != "" && !isEmail(req.email) then Step(Err(InvalidEmail), db)
      else if req.password != "" && req.newPassword != "" && JsLength(req.newPassword) < MinPasswordLength then
        Step(Err(WeakNewPassword), db)
      else if req.password != "" && req.newPassword != "" && !hasher.compare(req.password, u.password) then
        Step(Err(InvalidCurrentPassword), db)
      else
        match Replace(db, i, Updated(u, hasher, req, salt))
        case Err(_) => Step(Err(UpdateFailed), db)
        case Ok(db') => Step(Ok(Profile(db'[i].user.name, db'[i].user.email)), db')
  }

  // ---- properties relating the handlers ----

  /** The password boundary: 7 characters are refused, 8 are accepted by the length check. */
  lemma PasswordBoundary(db: Db, hasher: Hasher, isEmail: string -> bool, jwt: Jwt,
                         name: string, email: string, salt: string, newId: string)
    requires FindByEmail(db, email).None? && isEmail(email)
    ensures RegisterUser(db, hasher, isEmail, jwt, name, email, "1234567", salt, newId).result == Err(WeakPassword)
    ensures RegisterUser(db, hasher, isEmail, jwt, name, email, "12345678", salt, newId).result != Err(WeakPassword)
  {
    JsLengthOfBmp("1234567");
    JsLengthOfBmp("12345678");
  }

  /** The length check counts UTF-16 code units: four characters outside the Basic Multilingual
      Plane make a password of length 8, which is not refused as weak. */
  lemma AstralPasswordIsLongEnough(db: Db, hasher: Hasher, isEmail: string -> bool, jwt: Jwt,
                                   name: string, email: string, salt: string, newId: string)
    requires FindByEmail(db, email).None? && isEmail(email)
    ensures RegisterUser(db, hasher, isEmail, jwt, name, email, "\U{1F600}\U{1F600}\U{1F600}\U{1F600}", salt, newId).result
      != Err(WeakPassword)
  {
    AstralLength();
  }

  /** Logging in with the e-mail and password just registered succeeds and yields a token for the
      new user, given that a hash compares equal to its password. */
  lemma RegisterThenLogin(db: Db, hasher: Hasher, isEmail: string -> bool, jwt: Jwt,
                          name: string, email: string, password: string, salt: string, newId: string)
    requires hasher.Sound()
    requires RegisterUser(db, hasher, isEmail, jwt, name, email, password, salt, newId).result.Ok?
    ensures var db' := RegisterUser(db, hasher, isEmail, jwt, name, email, password, salt, newId).db;
      LoginUser(db', hasher, jwt, email, password) == Ok(CreateToken(jwt, newId))
  {
    var db' := RegisterUser(db, hasher, isEmail, jwt, name, email, password, salt, newId).db;
    assert forall k :: 0 <= k < |db| ==> db'[k] == db[k];
    assert db'[|db|].user.email == Some(email);
    FirstIndexIsUnique(db', (d: UserDoc) => d.user.email == Some(email), |db|);
    assert FindByEmail(db', email) == Some(|db|);
  }

  /** Registration keeps the e-mail, phone and id indexes unique. */
  lemma RegisterKeepsKeysUnique(db: Db, hasher: Hasher, isEmail: string -> bool, jwt: Jwt,
                                name: string, email: string, password: string, salt: string, newId: string)
    requires UniqueKeys(db)
    ensures UniqueKeys(RegisterUser(db, hasher, isEmail, jwt, name, email, password, salt, newId).db)
  {
  }

  /** An update keeps the e-mail, phone and id indexes unique. */
  lemma UpdateKeepsKeysUnique(db: Db, hasher: Hasher, isEmail: string -> bool, jwt: Jwt,
                              authorization: Option<string>, req: UpdateRequest, salt: string)
    requires UniqueKeys(db)
    ensures UniqueKeys(UpdateUser(db, hasher, isEmail, jwt, authorization, req, salt).db)
  {
  }

  /** An update leaves the phone and the cart alone, and keeps the password unless both
      passwords were given. */
  lemma UpdateChangesOnlyNameEmailPassword(db: Db, hasher: Hasher, isEmail: string -> bool, jwt: Jwt,
                                           authorization: Option<string>, req: UpdateRequest, salt: string)
    ensures var step := UpdateUser(db, hasher, isEmail, jwt, authorization, req, salt);
      step.result.Ok? ==>
      var i := Authenticate(db, jwt, authorization, UpdateFailed).value;
      var db' := step.db;
      && db'[i].id == db[i].id
      && db'[i].user.phone == db[i].user.phone
      && db'[i].user.cartData == db[i].user.cartData
      && (req.password == "" || req.newPassword == "" ==> db'[i].user.password == db[i].user.password)
      && (req.name == "" ==> db'[i].user.name == db[i].user.name)
      && (req.email == "" ==> db'[i].user.email == db[i].user.email)
      && forall k :: 0 <= k < |db| && k != i ==> db'[k] == db[k]
  {
  }
}

=== FILE: user_model.dfy ===
/** The user collection: the user and cart-line schemas, their validation on
    `save()`, and the unique indexes on `_id`, `email` and `phone`. The
    collection is a sequence of documents in insertion order, so that a
    `findOne`/`findById` query returns its first match. */
module UserModel {
  import opened Basics
  import opened Validators

  /** One entry of `cartData`: a product id and a quantity. */
  datatype CartLine = CartLine(itemId: string, quantity: int)

  type Cart = seq<CartLine>

  /** The cart-item schema: `itemId` required, `quantity` required and at least 1. */
  predicate CartLineValid(l: CartLine) {
    l.itemId != "" && l.quantity >= 1
  }

  /** A user document's fields; `email` and `phone` are optional (`None` when absent). */
  datatype User = User(name: string, email: Option<string>, phone: Option<string>, password: string, cartData: Cart)

  /** The user schema's validators: required `name` and `password` (a required string
      rejects ""), the e-mail and phone patterns, and every cart line's schema. */
  predicate SchemaValid(u: User) {
    && u.name != ""
    && u.password != ""
    && EmailFieldValid(u.email)
    && PhoneFieldValid(u.phone)
    && forall k :: 0 <= k < |u.cartData| ==> CartLineValid(u.cartData[k])
  }

  /** The schema on sample users: a user with no e-mail, no phone and an empty cart passes;
      an empty name, a cart line of quantity 0, or an e-mail without a top-level domain fails. */
  lemma SchemaExamples()
    ensures SchemaValid(User("n", None, None, "p", []))
    ensures !SchemaValid(User("", None, None, "p", []))
    ensures !SchemaValid(User("n", None, None, "p", [CartLine("i", 0)]))
    ensures !SchemaValid(User("n", Some("a@bco"), None, "p", []))
  {
    var u := User("n", None, None, "p", []);
    assert EmailFieldValid(u.email) && PhoneFieldValid(u.phone);
    var bad := User("n", None, None, "p", [CartLine("i", 0)]);
    assert !CartLineValid(bad.cartData[0]);
    assert !EmailFieldValid(Some("a@bco")) by {
      EmailExamples();
    }
  }

  datatype UserDoc = UserDoc(id: string, user: User)

  type Db = seq<UserDoc>

  /** Two documents that the unique indexes forbid together: same `_id`, or the same
      present e-mail, or the same present phone. The indexes on `email` and `phone`
      are sparse, so documents lacking the field never collide on it. */
  predicate Collide(a: UserDoc, b: UserDoc) {
    || a.id == b.id
    || (a.user.email.Some? && a.user.email == b.user.email)
    || (a.user.phone.Some? && a.user.phone == b.user.phone)
  }

  /** The state every unique index maintains. */
  predicate UniqueKeys(db: Db) {
    forall i, j :: 0 <= i < |db| && 0 <= j < |db| && i != j ==> !Collide(db[i], db[j])
  }

  /** `findById(id)`; an undefined id finds nothing. */
  function FindById(db: Db, id: Option<string>): (r: Option<nat>)
    ensures r.Some? ==> id.Some? && r.value < |db| && db[r.value].id == id.value
    ensures r.None? <==> id.None? || forall k :: 0 <= k < |db| ==> db[k].id != id.value
  {
    match id
    case None => None
    case Some(key) => FirstIndex(db, (d: UserDoc) => d.id == key)
  }

  /** `findOne({ email })`: the first document whose e-mail is the given one. */
  function FindByEmail(db: Db, email: string): (r: Option<nat>)
    ensures r.Some? ==> r.value < |db| && db[r.value].user.email == Some(email)
    ensures r.Some? ==> forall k :: 0 <= k < r.value ==> db[k].user.email != Some(email)
    ensures r.None? <==> forall k :: 0 <= k < |db| ==> db[k].user.email != Some(email)
  {
    FirstIndex(db, (d: UserDoc) => d.user.email == Some(email))
  }

  /** Why `save()` failed: a schema validator, or a unique index (error E11000). */
  datatype SaveError = ValidationFailed | DuplicateKey

  /** `save()` of a new document: validation first, then the unique indexes. */
  function Insert(db: Db, doc: UserDoc): (r: Result<Db, SaveError>)
    ensures r == Err(ValidationFailed) <==> !SchemaValid(doc.user)
    ensures r == Err(DuplicateKey) <==> SchemaValid(doc.user) && exists k :: 0 <= k < |db| && Collide(db[k], doc)
    ensures r.Ok? ==> r.value == db + [doc]
    ensures r.Ok? && UniqueKeys(db) ==> UniqueKeys(r.value)
  {
    if !SchemaValid(doc.user) then Err(ValidationFailed)
    else if exists k :: 0 <= k < |db| && Collide(db[k], doc) then Err(DuplicateKey)
    else
      var db' := db + [doc];
      assert forall k :: 0 <= k < |db| ==> !Collide(doc, db[k]) && db'[k] == db[k];
      Ok(db')
  }

  /** `save()` of the document at index `i` with new fields `u`; its `_id` is kept. */
  function Replace(db: Db, i: nat, u: User): (r: Result<Db, SaveError>)
    requires i < |db|
    ensures r == Err(ValidationFailed) <==> !SchemaValid(u)
    ensures r == Err(DuplicateKey) <==>
      SchemaValid(u) && exists k :: 0 <= k < |db| && k != i && Collide(db[k], UserDoc(db[i].id, u))
    ensures r.Ok? ==> |r.value| == |db| && r.value[i] == UserDoc(db[i].id, u)
    ensures r.Ok? ==> forall k :: 0 <= k < |db| && k != i ==> r.value[k] == db[k]
    ensures r.Ok? && UniqueKeys(db) ==> UniqueKeys(r.value)
  {
    var doc := UserDoc(db[i].id, u);
    if !SchemaValid(u) then Err(ValidationFailed)
    else if exists k :: 0 <= k < |db| && k != i && Collide(db[k], doc) then Err(DuplicateKey)
    else
      var db' := db[i := doc];
      assert forall k :: 0 <= k < |db| && k != i ==> !Collide(doc, db[k]);
      Ok(db')
  }

  /** `findByIdAndUpdate(id, { $set: { cartData } })`: an update that runs no validators. */
  function SetCart(db: Db, i: nat, cart: Cart): (r: Db)
    requires i < |db|
    ensures |r| == |db| && r[i].id == db[i].id && r[i].user.cartData == cart
    ensures r[i].user == db[i].user.(cartData := cart)
    ensures forall k :: 0 <= k < |db| && k != i ==> r[k] == db[k]
    ensures UniqueKeys(db) ==> UniqueKeys(r)
  {
    db[i := db[i].(user := db[i].user.(cartData := cart))]
  }

  /** Writing a cart changes no id, so every id lookup finds the same document afterwards. */
  lemma FindByIdAfterSetCart(db: Db, i: nat, cart: Cart, id: Option<string>)
    requires i < |db|
    ensures FindById(SetCart(db, i, cart), id) == FindById(db, id)
  {
    var db' := SetCart(db, i, cart);
    assert forall k :: 0 <= k < |db| ==> db'[k].id == db[k].id;
    if FindById(db, id).Some? {
      var j := FindById(db, id).value;
      FirstIndexIsUnique(db', (d: UserDoc) => d.id == id.value, j);
    }
  }

  /** With the e-mail index in place, the document `findOne({ email })` returns is the only one with that e-mail. */
  lemma FindByEmailIsTheOnly(db: Db, email: string, k: nat)
    requires UniqueKeys(db)
    requires k < |db| && db[k].user.email == Some(email)
    ensures FindByEmail(db, email) == Some(k)
  {
    var r := FindByEmail(db, email);
    if r.value != k {
      assert Collide(db[r.value], db[k]);
      assert false;
    }
  }

  /** Absent e-mails and phones never collide, so any number of such users can coexist. */
  lemma AbsentKeysDoNotCollide(a: UserDoc, b: UserDoc)
    requires a.id != b.id
    requires a.user.email.None? && a.user.phone.None?
    ensures !Collide(a, b) && !Collide(b, a)
  {
  }
}

=== FILE: validators.dfy ===
/** The field validators of the user schema: the e-mail pattern
    `^[\w-\.]+@([\w-]+\.)+[\w-]{2,4}$` and the phone pattern `^\d{10}$`,
    each applied only when a value is present and non-empty.

    The e-mail pattern is recognised by `EmailMatches`, a deterministic
    scan that splits at the first `@` and then at each `.`; `RegexAccepts`
    states the pattern's structure directly (a local part, one or more
    `label.` groups, a 2-4 character tail) and `EmailMatchesIsRegex`
    proves the two agree on every string. */
module Validators {
  import opened Basics
  import opened Text

  /** `[\w-\.]`: in a non-Unicode pattern the `-` next to `\w` is a literal. */
  predicate IsLocalChar(c: char) {
    IsWordChar(c) || c == '-' || c == '.'
  }

  /** `[\w-]`. */
  predicate IsLabelChar(c: char) {
    IsWordChar(c) || c == '-'
  }

  /** `[\w-\.]+`. */
  predicate LocalPart(s: string) {
    |s| >= 1 && forall i :: 0 <= i < |s| ==> IsLocalChar(s[i])
  }

  /** `[\w-]+`. */
  predicate Label(s: string) {
    |s| >= 1 && forall i :: 0 <= i < |s| ==> IsLabelChar(s[i])
  }

  /** `[\w-]{2,4}`. */
  predicate Tld(s: string) {
    2 <= |s| <= 4 && forall i :: 0 <= i < |s| ==> IsLabelChar(s[i])
  }

  /** `([\w-]+\.)+[\w-]{2,4}`: a label up to the first dot, then either the tail or more labels. */
  predicate DomainMatches(d: string)
    decreases |d|
  {
    match IndexOf(d, '.')
    case None => false
    case Some(j) => Label(d[..j]) && (Tld(d[j + 1..]) || DomainMatches(d[j + 1..]))
  }

  /** The e-mail pattern, recognised by splitting at the first `@`. */
  predicate EmailMatches(s: string) {
    match IndexOf(s, '@')
    case None => false
    case Some(i) => LocalPart(s[..i]) && DomainMatches(s[i + 1..])
  }

  /** The pieces the e-mail pattern is built from. */
  datatype EmailParts = EmailParts(local: string, labels: seq<string>, tld: string)

  /** `l1.l2. ... ln.` */
  function Dotted(labels: seq<string>): string {
    if |labels| == 0 then "" else labels[0] + "." + Dotted(labels[1..])
  }

  function Assemble(p: EmailParts): string {
    p.local + "@" + Dotted(p.labels) + p.tld
  }

  predicate PartsMatch(p: EmailParts) {
    && LocalPart(p.local)
    && |p.labels| >= 1
    && (forall k :: 0 <= k < |p.labels| ==> Label(p.labels[k]))
    && Tld(p.tld)
  }

  /** The e-mail pattern as its structure: some choice of pieces spells `s`. */
  ghost predicate RegexAccepts(s: string) {
    exists p :: PartsMatch(p) && Assemble(p) == s
  }

  /** The `email` field's validator: an absent or empty value passes, otherwise the pattern decides. */
  predicate EmailFieldValid(v: Option<string>) {
    v.None? || v.value == "" || EmailMatches(v.value)
  }

  /** `^\d{10}$`. */
  predicate PhoneMatches(s: string) {
    |s| == 10 && forall i :: 0 <= i < |s| ==> IsDigit(s[i])
  }

  /** The `phone` field's validator: an absent or empty value passes, otherwise exactly ten digits. */
  predicate PhoneFieldValid(v: Option<string>) {
    v.None? || v.value == "" || PhoneMatches(v.value)
  }

  /** A domain the scan accepts is a sequence of labels each followed by a dot, then the tail. */
  lemma {:induction false} DomainParts(d: string) returns (labels: seq<string>, tld: string)
    requires DomainMatches(d)
    ensures |labels| >= 1 && (forall k :: 0 <= k < |labels| ==> Label(labels[k])) && Tld(tld)
    ensures Dotted(labels) + tld == d
    decreases |d|
  {
    var j := IndexOf(d, '.').value;
    var rest := d[j + 1..];
    assert d == d[..j] + "." + rest;
    if Tld(rest) {
      labels, tld := [d[..j]], rest;
      assert Dotted(labels) == d[..j] + "." + Dotted([]);
    } else {
      var more;
      more, tld := DomainParts(rest);
      labels := [d[..j]] + more;
      assert labels[1..] == more;
      assert Dotted(labels) + tld == d[..j] + "." + (Dotted(more) + tld);
    }
  }

  /** Labels followed by dots and a tail are accepted by the domain scan. */
  lemma {:induction false} DomainOfParts(labels: seq<string>, tld: string)
    requires |labels| >= 1 && (forall k :: 0 <= k < |labels| ==> Label(labels[k])) && Tld(tld)
    ensures DomainMatches(Dotted(labels) + tld)
    decreases |labels|
  {
    var rest := Dotted(labels[1..]) + tld;
    var d := Dotted(labels) + tld;
    assert d == labels[0] + ['.'] + rest;
    assert '.' !in labels[0] by {
      assert Label(labels[0]);
    }
    IndexOfAfterPrefix(labels[0], '.', rest);
    assert d[..|labels[0]|] == labels[0];
    assert d[|labels[0]| + 1..] == rest;
    if |labels| == 1 {
      assert rest == tld;
    } else {
      DomainOfParts(labels[1..], tld);
    }
  }

  /** Every string the scan accepts has the pattern's structure. */
  lemma EmailMatchesSound(s: string)
    requires EmailMatches(s)
    ensures RegexAccepts(s)
  {
    var i := IndexOf(s, '@').value;
    var labels, tld := DomainParts(s[i + 1..]);
    var p := EmailParts(s[..i], labels, tld);
    assert s == s[..i] + "@" + s[i + 1..];
    assert Assemble(p) == s;
    assert PartsMatch(p);
  }

  /** Every string with the pattern's structure is accepted by the scan. */
  lemma EmailMatchesComplete(p: EmailParts)
    requires PartsMatch(p)
    ensures EmailMatches(Assemble(p))
  {
    var s := Assemble(p);
    var d := Dotted(p.labels) + p.tld;
    assert s == p.local + ['@'] + d;
    assert '@' !in p.local by {
      assert LocalPart(p.local);
    }
    IndexOfAfterPrefix(p.local, '@', d);
    assert s[..|p.local|] == p.local;
    assert s[|p.local| + 1..] == d;
    DomainOfParts(p.labels, p.tld);
  }

  /** The scan and the pattern's structure accept exactly the same strings. */
  lemma EmailMatchesIsRegex(s: string)
    ensures EmailMatches(s) <==> RegexAccepts(s)
  {
    if EmailMatches(s) {
      EmailMatchesSound(s);
    }
    if RegexAccepts(s) {
      var p :| PartsMatch(p) && Assemble(p) == s;
      EmailMatchesComplete(p);
    }
  }

  /** Examples: a two-letter tail is accepted; a one-letter tail or no dot at all is not. */
  lemma EmailExamples()
    ensures EmailFieldValid(Some("a@b.co"))
    ensures !EmailFieldValid(Some("a@b.c"))
    ensures !EmailFieldValid(Some("a@bco"))
    ensures EmailFieldValid(None) && EmailFieldValid(Some(""))
  {
    assert IndexOf("a@b.co", '@') == Some(1);
    assert IndexOf("b.co", '.') == Some(1);
    assert IndexOf("a@b.c", '@') == Some(1);
    assert IndexOf("b.c", '.') == Some(1);
    assert IndexOf("c", '.') == None;
    assert IndexOf("a@bco", '@') == Some(1);
    assert IndexOf("bco", '.') == None;
  }

  /** Examples: exactly ten digits pass; nine digits or a letter do not; absence passes. */
  lemma PhoneExamples()
    ensures PhoneFieldValid(Some("9876543210"))
    ensures !PhoneFieldValid(Some("987654321"))
    ensures !PhoneFieldValid(Some("98765a3210"))
    ensures PhoneFieldValid(None) && PhoneFieldValid(Some(""))
  {
    assert !IsDigit("98765a3210"[5]);
  }
}
